=== FILE: README.md ===
# Ozone transport model

A model of a small three-dimensional ozone transport simulation and of its
input-file parser.

The simulation covers a rectangular domain. The domain is divided into
cells of size dx × dy × dz. The model object derives the grid dimensions
from the domain and allocates a zero concentration field. Road sources are
straight segments. Each road is rasterised once, when it is registered,
into the distinct grid cells its samples fall in. Each time step does four
things, in this order:

- it builds a new field with an explicit upwind-advection and diffusion
  stencil;
- it adds each road's emission rate (read at the pre-step time) times dt to
  the ground cell of each of its in-range cells;
- with an open top, it zeroes the top layer;
- it commits the new field and advances the clock.

The total-ozone diagnostic is the triple sum over the field. The
simulation script attaches a rush-hour traffic profile to its roads.

The parser reads an input file line by line into a dictionary from section
names to lists of numbers:

- blank lines are skipped;
- a line `#NAME` opens, or reopens and empties, the upper-cased section
  NAME;
- any other line after the first header contributes the number its first
  token spells, when there is one.

Modules:

- `Results`: `Option`, `Result` and the exceptions the code can raise.
- `Numeric`: truncating `int()`, floored `% 24`, and the length of `range(n)`.
- `Unique`: order-preserving de-duplication.
- `Grid`: the field, the stencil, emission, the open top, and the total.
- `Raster`: road rasterisation.
- `Ozone`: the model object and its step.
- `Schedule`: the rush-hour profile.
- `Text`: strip, upper, first token, `int()` and `float()`.
- `Parser`: `parse_input`.
- `ParserExamples`: concrete readings, including the test file.

## Model

| member | source | states |
|---|---|---|
| Numeric.Trunc | ozone_model.py:50-52 | `int()` of a float rounds toward zero: the result is at most the value for non-negative values and at least it for negative ones, within 1 |
| Numeric.DimensionOfSpan | ozone_model.py:50-52 | a dimension `int(span / size) + 1` is positive exactly when span / size > -1, and is 1 whenever the span is less than one cell size either way, empty bounds included |
| Numeric.Mod24 | simulate.py:12 | `t % 24` on a float lies in [0, 24) and differs from t by a whole multiple of 24 |
| Numeric.Mod24Periodic | simulate.py:12 | adding 24 hours does not change the hour of day |
| Unique.Dedup | ozone_model.py:29 | the de-duplicated list has no repeats, has exactly the members of the input, and is no longer than it |
| Unique.DedupHead | ozone_model.py:29 | a non-empty list keeps its first element at the front |
| Unique.DedupFirstOccurrenceOrder | ozone_model.py:29 | the kept elements appear in the order in which they first occur in the input |
| Unique.DedupOfDistinct | ozone_model.py:29 | a list without repeats is returned unchanged |
| Unique.DedupConstant | ozone_model.py:29 | a non-empty list of copies of one value keeps exactly one copy |
| Raster.StepCount | ozone_model.py:20 | the number of sampling steps is at least 1, and is one more than the truncated larger span in cell sizes: n - 1 <= that span < n |
| Raster.Samples | ozone_model.py:21-28 | there are steps + 1 samples, sample s is the cell of the point at parameter s / steps, the first sample is the start's cell and the last is the end's cell |
| Raster.SampleEnds | ozone_model.py:22-25 | the first sample is the start point and the last is the end point |
| Raster.Cells | ozone_model.py:14-29 | the road's cells have no repeats, are exactly the sampled cells, and are in first-sampled order; there are between 1 and steps + 1 of them; the start cell comes first and the end cell is among them |
| Raster.TryCells | ozone_model.py:14-29 | rasterisation raises ZeroDivisionError exactly when a cell size is 0, and otherwise yields the road's cells |
| Raster.ZeroLengthSingleCell | ozone_model.py:14-29 | a road whose end points coincide covers exactly one cell, the cell of that point |
| Raster.InterstateExample | ozone_model.py:14-29 | the I-15 road of the example script, at 1000-unit cells, covers cells (0, 10) to (16, 10) in north-to-south order |
| Grid.Zeros | ozone_model.py:53 | the allocated field has the requested shape, every cell is 0, and its total ozone is 0 |
| Grid.TotalOfZeros | ozone_model.py:97-98 | an all-zero field has total ozone 0 |
| Grid.SumUpdate | ozone_model.py:97-98 | replacing one summand changes the sum by the difference |
| Grid.TotalAddAt | ozone_model.py:97-98 | adding an amount to one cell adds exactly that amount to the total |
| Grid.TermsVanish | ozone_model.py:66-78 | an advection or diffusion term leaves the running value unchanged when the speed or D is 0, or when the neighbours equal it |
| Grid.Stencil | ozone_model.py:60-79 | the stencil yields a fresh field of the same shape; the corner cell, which has no upwind and no interior neighbours, keeps its value (the other cells' values are pinned by the shift and row-diffusion lemmas below) |
| Grid.StencilLocal | ozone_model.py:60-79 | a cell's new value depends only on the old values of that cell and its six axis neighbours |
| Grid.StencilNoFlow | ozone_model.py:60-79 | with no wind and no diffusion, the stencil returns the old field |
| Grid.StencilUniform | ozone_model.py:60-79 | a uniform field is returned unchanged under any wind, diffusion and time step |
| Grid.AdvectFullStep | ozone_model.py:66-67 | an upwind term at Courant number 1 (speed · dt = h) replaces the value by the upstream one |
| Grid.StencilShift | ozone_model.py:60-79 | wind along x alone at Courant number 1 shifts the whole field one cell along x: each cell past the first takes its upstream neighbour's old value, and the first keeps its own |
| Grid.DiffuseTowardMean | ozone_model.py:73-74 | with positive D and dt, a diffusion term raises a value below the mean of its neighbours and lowers one above it |
| Grid.StencilRowDiffusion | ozone_model.py:60-79 | on a single row with no wind, each interior cell takes one diffusion term over its neighbours' old values, and the two end cells keep theirs |
| Grid.StencilRowSmooths | ozone_model.py:60-79 | on a single row with no wind and positive D and dt, an interior cell below its neighbours' mean rises and one above it falls |
| Grid.DepositCell | ozone_model.py:85-86 | one emission write adds the amount to the ground cell of an in-range cell and changes nothing else |
| Grid.EmitGround | ozone_model.py:84-86 | one source raises each ground cell by its amount once per occurrence of that cell in its list |
| Grid.EmitAboveGround | ozone_model.py:84-86 | emission changes no cell above the ground layer |
| Grid.EmitTotal | ozone_model.py:84-86 | one source adds its amount to the total once per in-range listed cell; cells outside the grid are skipped |
| Grid.OpenTop | ozone_model.py:89-92 | every cell of the top layer becomes 0 and every cell below it is kept |
| Ozone.New | ozone_model.py:49-53 | construction fails with ZeroDivisionError exactly when a cell size is 0; otherwise the model keeps the given configuration, sources and time, has the truncated-plus-one dimensions, and has a zero field of that shape with total 0 |
| Ozone.ExampleDimensions | simulate.py:6 | the example script's domain with default cell sizes has 17 × 21 × 21 cells |
| Ozone.AddRoadSource | ozone_model.py:55-57 | registration appends the road together with its cells at the model's cell sizes, and changes nothing else |
| Ozone.Emitters | ozone_model.py:82-83 | each source is paired with its cached cells and its rate at the given time, so every emitter is rated exactly when every source's callable returns a value |
| Ozone.InjectOutcome | ozone_model.py:81-86 | the emission phase succeeds exactly when every rate callable returns a value and, if the columns are empty, no source lists an in-range cell; a raising callable is reported by its position, and every emitter before it was rated, so it is the first to raise; with non-empty columns a raising callable always gives SourceRaised, and IndexOutOfRange only ever comes from empty columns |
| Ozone.InjectGround | ozone_model.py:81-86 | the emission phase raises each ground cell by the emission of all sources at that cell |
| Ozone.InjectAboveGround | ozone_model.py:81-86 | the emission phase changes no cell above the ground layer |
| Ozone.InjectTotal | ozone_model.py:81-86 | the emission phase adds the emitted mass to the total |
| Ozone.EmissionOfOne | ozone_model.py:81-86 | one source over distinct cells emits rate × dt into each of them and nothing elsewhere |
| Ozone.Bound | ozone_model.py:88-92 | with an open top, the top layer is zeroed and the rest kept; the write raises an index error exactly when the columns are empty over a non-empty horizontal extent |
| Ozone.Step | ozone_model.py:59-95 | a successful step keeps the model valid, keeps the configuration, dimensions and sources, and advances the time by dt |
| Ozone.StepOutcome | ozone_model.py:59-95 | a step succeeds exactly when every rate callable returns a value at the pre-step time and, if the columns are empty, nothing is written into them; a raising callable is reported by its position, and every source before it returned a value, so it is the first to raise; with non-empty columns a raising callable always gives SourceRaised, IndexOutOfRange only ever comes from empty columns, and a step never raises ZeroDivisionError |
| Ozone.StepTopOpen | ozone_model.py:88-92 | with an open top, every top-layer cell is 0 after a step, even when the top layer is the ground layer |
| Ozone.StepCell | ozone_model.py:59-95 | after a step, each cell holds 0 in an open top layer, and otherwise the stencil's value plus, on the ground layer, the emission of all sources at the pre-step time |
| Ozone.StepHoldsStill | ozone_model.py:59-95 | with no wind, no diffusion, no sources and a closed top, a step changes no cell and keeps the total |
| Ozone.StepIsolation | ozone_model.py:59-95 | from a zero field with no flow and a closed top, one source with rate r leaves r × dt in each ground cell of its road and 0 everywhere else |
| Ozone.StepMass | ozone_model.py:59-95 | with no flow and a closed top, a step raises the total by exactly the mass emitted into the grid |
| Ozone.Call | ozone_model.py:94-95 | on success the stored model becomes the step's result, with the time advanced by dt; a raising step reports the step's error and leaves the stored model as it was |
| Ozone.Run | simulate.py:31-32 | n successful steps advance the time by n × dt and keep the configuration and sources |
| Ozone.RunHoldsStill | simulate.py:31-32 | with no flow, no sources and a closed top, any number of steps keeps the field and its total |
| Schedule.RushHourRate | simulate.py:10-17 | the rate is 5 exactly in the rush hours [7, 9) and [16, 18), 0.5 exactly in [0, 5), 1 otherwise, and always positive |
| Schedule.RushHourPeriodic | simulate.py:10-17 | the rate one day later is the same |
| Schedule.RushHourDays | simulate.py:10-17 | the rate any whole number of days later is the same |
| Schedule.RushHourSamples | simulate.py:10-17 | sample hours, including a negative time, give the night, rush and base rates |
| Schedule.RushHourProfile | simulate.py:21-25 | the profile, used as a rate callable, never raises, returns the rush-hour rate, and repeats every 24 hours |
| Text.TrimLeft | parser.py:10 | leading whitespace is removed: the result is a suffix, what precedes it is all whitespace, and it does not start with whitespace |
| Text.TrimRight | parser.py:10 | trailing whitespace is removed: the result is a prefix, what follows it is all whitespace, and it does not end with whitespace |
| Text.Strip | parser.py:10 | the stripped line is no longer than the line, and neither of its ends is whitespace |
| Text.StripPadded | parser.py:10 | a string with no whitespace at either end, padded with whitespace on both sides, strips back to itself |
| Text.Upper | parser.py:14 | upper-casing maps each character independently, a–z to A–Z, and so keeps the length (Python's full mapping does not; see Left out) |
| Text.UpperOfUpper | parser.py:14 | a name with no lower-case letter is its own upper case |
| Text.FirstToken | parser.py:20 | the first token is a whitespace-free prefix, followed by whitespace or by the end of the line |
| Text.FirstTokenOfJoined | parser.py:20 | text after the first whitespace does not change the token |
| Text.StripKeepsToken | parser.py:10-20 | a line made of a token, whitespace and more text strips to a string that starts with that token |
| Text.ParseInt | parser.py:26 | `int()` succeeds exactly on an optional sign followed by one or more decimal digits |
| Text.ParseShowInt | parser.py:26 | reading back an integer's decimal text gives the integer |
| Text.ParseIntSamples | parser.py:26 | leading zeros and signs are accepted; an empty string, a lone sign and trailing letters are rejected |
| Text.ParseFloatDecimal | parser.py:24 | `float()` reads a literal `w.f` as the integer of the digits of w and f scaled down by the number of fraction digits |
| Text.UnsignedFloatWithExponent | parser.py:24 | a mantissa followed by `e` and an integer reads as the mantissa scaled by 10 to that integer |
| Text.ParseFloatScientific | parser.py:24 | `float()` reads `w.feX` as the reading of `w.f` scaled by 10 to X |
| Text.ParseFloatWhole | parser.py:24 | "12.0" reads as 12 |
| Text.ParseFloatPointFirst | parser.py:24 | ".5" reads as 0.5 |
| Text.ParseFloatLonePoint | parser.py:24 | "." is not a float |
| Text.ParseFloatEmptyExponent | parser.py:24 | "1.5e" is not a float |
| Parser.ParseNumber | parser.py:21-28 | a token with a point reads as the float `float()` gives when it accepts it; any other token reads as the int `int()` gives when it accepts it; otherwise it is skipped |
| Parser.Reset | parser.py:15 | opening a section empties its list; a new name is appended to the keys, an existing one keeps its place, and a well-formed dictionary stays well-formed |
| Parser.Append | parser.py:29 | appending adds the value at the end of the named section only, keeps the keys, and keeps a well-formed dictionary well-formed |
| Parser.LineStepClassified | parser.py:10-29 | one pass of the loop body is the action of the line's class: blank, header, or entry |
| Parser.FeedClassified | parser.py:9-29 | the loop over the lines is the loop over their classes |
| Parser.ParseClassified | parser.py:5-30 | the parser's result is the dictionary built from the classified lines |
| Parser.BlankLineIgnored | parser.py:11-12 | a blank line anywhere in the file changes nothing |
| Parser.PreambleIgnored | parser.py:17-18 | lines before the first header change nothing |
| Parser.TrailingTextIgnored | parser.py:19-20 | text after the first whitespace of an entry line is irrelevant |
| Parser.RunKeys | parser.py:13-15 | the keys are the header names in the order of their first headers |
| Parser.RunDomain | parser.py:13-15 | exactly the names some header gave have entries |
| Parser.RunCurrent | parser.py:13-18 | after the loop, the current section is the one the last header named, or none |
| Parser.ParseKeys | parser.py:5-30 | the result's keys are the distinct header names in first-occurrence order, and exactly those names have entries |
| Parser.ParseWellFormed | parser.py:5-30 | the result has distinct keys, and exactly the keys have entries |
| Parser.RunValues | parser.py:13-29 | each section holds the converting values between its last header and the next header |
| Parser.ParseValues | parser.py:5-30 | each section of the result holds exactly the converting values after its last header, up to the next header; an earlier header of the same name is discarded |
| ParserExamples.HeaderLine | parser.py:13-15 | a header line `#NAME` with a trimmed upper-case name opens NAME |
| ParserExamples.TokenLine | parser.py:20 | a line of one token is an entry with that token's reading |
| ParserExamples.ParseNumberInt | parser.py:26 | any integer's decimal text reads as that int |
| ParserExamples.ParseNumberDecimal | parser.py:23-24 | a decimal literal reads as a float |
| ParserExamples.ParseNumberRejects | parser.py:27-28 | "abc" and "1.2.3" are skipped |
| ParserExamples.AnnotatedFloatLine | parser.py:20-24 | "12.0 hours after midnight" contributes the float 12.0 |
| ParserExamples.SampleFile | test_parser.py:5-10 | a file with `#TIME`, 7, an annotated 12.0, `#TOPBOUNDARY` and 100 gives TIME = [7, 12.0] and TOPBOUNDARY = [100], in that key order |

## Left out

- File I/O: the parser takes the file as a sequence of lines, and the
  line-end characters are treated as whitespace that strip removes.
- The parser's `main`: it prints the sections.
- The visualization module.
- The script's printing loop. Repeated stepping is modelled by `Ozone.Run`.
- Floating point. All quantities are exact reals, so there is no rounding,
  overflow, infinity or NaN. A stencil that is unstable for large dt is
  modelled exactly as written, without blowing up.
- Times: emission adds rate × dt once per listed cell. This is written as
  repeated addition, and `Grid.TimesIsProduct` equates it with the product.
- ParseInt: covers an optional sign and ASCII decimal digits. Underscores
  between digits, non-ASCII digits, and whitespace inside the token are not
  modelled (a token never holds whitespace). Python 3.11 and later also
  reject a token of more than 4300 digits; the model reads it.
- Upper: a–z only, one character to one character. Python's full case
  mapping can change the length (`ß` becomes `SS`); the model leaves `ß`
  as it is, so its result always has the input's length.
- ParseFloat: covers signed decimal literals with an optional exponent.
  `inf`, `nan`, underscores and non-ASCII digits are not modelled and read
  as non-numbers.
- ParseKeys: section names are upper-cased for a–z only. Python's full
  Unicode mapping differs for other letters: `#straße` gives `STRASSE` in
  Python and `STRAßE` here.
- ParseValues: section names are upper-cased for a–z only, as for
  ParseKeys.
- Rate callables are modelled as pure functions of time. A callable that
  raises is `None`. The model reads every source's rate at the pre-step time
  up front. Python calls them one at a time, which is the same for pure
  callables.
- Road names are kept but play no role.
- The dataclass's mutable object is modelled as a value. Mutation is a new
  `Model`, and an exception leaves the stored state as it was (`Ozone.Call`).

Behaviour of the code that the model keeps:

- `int()` truncates toward zero. It does not floor, so negative coordinates
  fall in the cell nearer 0.
- The diffusion terms use the running value of c, already changed by the
  earlier terms, in the `-2 * c` part.
- The constructor checks nothing except the division by a cell size. It
  raises no error for reversed or empty bounds. Empty bounds give a
  dimension of 1. Reversed bounds give 1 when reversed by less than one
  cell size, and 0 or less beyond that; dimensions of 0 or less are
  modelled as empty ranges (`Numeric.DimensionOfSpan`).
- A time step with empty vertical columns raises an index error only when
  it writes into them.

=== FILE: grid.dfy ===
/** The concentration field and the operations one time step performs on it:
    the advection-diffusion stencil, ground-level emission, the open-top
    boundary rule, and the total-mass diagnostic. */
module Grid {

  /** A horizontal cell index: i along north-south, j along west-east. */
  datatype Cell = Cell(i: int, j: int)

  /** Concentration per cell, indexed [i][j][k]; k = 0 is the ground layer. */
  type Field = seq<seq<seq<real>>>

  /** Wind components, diffusion coefficient and cell sizes read by the stencil. */
  datatype Coeffs = Coeffs(u: real, v: real, w: real, D: real, dx: real, dy: real, dz: real)

  predicate Shaped(g: Field, nx: nat, ny: nat, nz: nat) {
    && |g| == nx
    && (forall i :: 0 <= i < nx ==> |g[i]| == ny)
    && (forall i, j :: 0 <= i < nx && 0 <= j < ny ==> |g[i][j]| == nz)
  }

  predicate InRange(c: Cell, nx: nat, ny: nat) {
    0 <= c.i < nx && 0 <= c.j < ny
  }

  /** Two fields of one shape that agree cell by cell are equal. */
  lemma FieldExt(a: Field, b: Field, nx: nat, ny: nat, nz: nat)
    requires Shaped(a, nx, ny, nz) && Shaped(b, nx, ny, nz)
    requires forall i, j, k :: 0 <= i < nx && 0 <= j < ny && 0 <= k < nz ==> a[i][j][k] == b[i][j][k]
    ensures a == b
  {
    forall i | 0 <= i < nx
      ensures a[i] == b[i]
    {
      forall j | 0 <= j < ny
        ensures a[i][j] == b[i][j]
      {
        assert forall k :: 0 <= k < nz ==> a[i][j][k] == b[i][j][k];
      }
    }
  }

  /** The field allocated by the constructor: nx by ny by nz zeros. */
  function Zeros(nx: nat, ny: nat, nz: nat): (g: Field)
    ensures Shaped(g, nx, ny, nz)
    ensures forall i, j, k :: 0 <= i < nx && 0 <= j < ny && 0 <= k < nz ==> g[i][j][k] == 0.0
    ensures Total(g) == 0.0
  {
    var g := seq(nx, _ => seq(ny, _ => seq(nz, _ => 0.0)));
    TotalOfZeros(g, nx, ny, nz);
    g
  }

  // ---------------------------------------------------------------------
  // Total mass

  /** Python's `sum`, adding left to right. */
  function Sum(s: seq<real>): (total: real)
  {
    if |s| == 0 then 0.0 else Sum(s[..|s| - 1]) + s[|s| - 1]
  }

  function PlaneTotal(p: seq<seq<real>>): (total: real)
  {
    Sum(seq(|p|, j requires 0 <= j < |p| => Sum(p[j])))
  }

  /** The triple sum over every cell of the field. */
  function Total(g: Field): (total: real)
  {
    Sum(seq(|g|, i requires 0 <= i < |g| => PlaneTotal(g[i])))
  }

  /** Replacing one summand changes the sum by the difference. */
  lemma {:induction false} SumUpdate(s: seq<real>, p: nat, x: real)
    requires p < |s|
    ensures Sum(s[p := x]) == Sum(s) - s[p] + x
  {
    var n := |s| - 1;
    if p < n {
      assert s[p := x][..n] == s[..n][p := x];
      SumUpdate(s[..n], p, x);
    } else {
      assert s[p := x][..n] == s[..n];
    }
  }

  lemma {:induction false} SumOfZeros(s: seq<real>)
    requires forall k :: 0 <= k < |s| ==> s[k] == 0.0
    ensures Sum(s) == 0.0
  {
    if |s| > 0 {
      SumOfZeros(s[..|s| - 1]);
    }
  }

  /** A field of zeros has total mass 0. */
  lemma TotalOfZeros(g: Field, nx: nat, ny: nat, nz: nat)
    requires Shaped(g, nx, ny, nz)
    requires forall i, j, k :: 0 <= i < nx && 0 <= j < ny && 0 <= k < nz ==> g[i][j][k] == 0.0
    ensures Total(g) == 0.0
  {
    var planes := seq(|g|, i requires 0 <= i < |g| => PlaneTotal(g[i]));
    forall i | 0 <= i < nx
      ensures planes[i] == 0.0
    {
      var rows := seq(|g[i]|, j requires 0 <= j < |g[i]| => Sum(g[i][j]));
      forall j | 0 <= j < ny
        ensures rows[j] == 0.0
      {
        SumOfZeros(g[i][j]);
      }
      SumOfZeros(rows);
    }
    SumOfZeros(planes);
  }

  /** The field with amount a added to cell (i, j, k). */
  function AddAt(g: Field, i: nat, j: nat, k: nat, a: real): (r: Field)
    requires i < |g| && j < |g[i]| && k < |g[i][j]|
  {
    g[i := g[i][j := g[i][j][k := g[i][j][k] + a]]]
  }

  lemma AddAtCell(g: Field, i: nat, j: nat, k: nat, a: real, i': nat, j': nat, k': nat)
    requires i < |g| && j < |g[i]| && k < |g[i][j]|
    requires i' < |g| && j' < |g[i']| && k' < |g[i'][j']|
    ensures AddAt(g, i, j, k, a)[i'][j'][k'] == g[i'][j'][k'] + (if i' == i && j' == j && k' == k then a else 0.0)
  {
  }

  /** Adding a to one cell adds a to the total. */
  lemma TotalAddAt(g: Field, i: nat, j: nat, k: nat, a: real)
    requires i < |g| && j < |g[i]| && k < |g[i][j]|
    ensures Total(AddAt(g, i, j, k, a)) == Total(g) + a
  {
    var h := AddAt(g, i, j, k, a);
    var row := g[i][j];
    SumUpdate(row, k, row[k] + a);
    var rows := seq(|g[i]|, j' requires 0 <= j' < |g[i]| => Sum(g[i][j']));
    var rows' := seq(|h[i]|, j' requires 0 <= j' < |h[i]| => Sum(h[i][j']));
    assert rows' == rows[j := Sum(row) + a];
    SumUpdate(rows, j, Sum(row) + a);
    var planes := seq(|g|, i' requires 0 <= i' < |g| => PlaneTotal(g[i']));
    var planes' := seq(|h|, i' requires 0 <= i' < |h| => PlaneTotal(h[i']));
    assert planes' == planes[i := PlaneTotal(g[i]) + a];
    SumUpdate(planes, i, PlaneTotal(g[i]) + a);
  }

  // ---------------------------------------------------------------------
  // Stencil

  /** One upwind advection term: the running value moves toward the
      upstream neighbour's by speed * dt / h of the gap between them. */
  function Advect(c: real, upstream: real, speed: real, dt: real, h: real): (c': real)
    requires h != 0.0
  {
    c - dt * speed * (c - upstream) / h
  }

  /** One diffusion term: the running value grows by D * dt / h^2 times the
      second difference of the two neighbours around it. */
  function Diffuse(c: real, lo: real, hi: real, D: real, dt: real, h: real): (c': real)
    requires h != 0.0
  {
    c + dt * D * (hi - 2.0 * c + lo) / (h * h)
  }

  /** Neither term moves a value when the wind or diffusion coefficient is 0
      or when the neighbours hold the same value. */
  lemma TermsVanish(c: real, x: real, y: real, s: real, dt: real, h: real)
    requires h != 0.0
    ensures Advect(c, x, 0.0, dt, h) == c && Advect(c, c, s, dt, h) == c
    ensures Diffuse(c, x, y, 0.0, dt, h) == c && Diffuse(c, c, c, s, dt, h) == c
  {
  }

  /** The new value of cell (i, j, k): upwind advection along each axis
      whose index is above 0, then central-difference diffusion along each
      axis where the cell is strictly inside. Neighbours are read from the
      old field only; the running value c is what the advection terms and
      the `- 2 * c` of the diffusion terms use. */
  function Updated(g: Field, nx: nat, ny: nat, nz: nat, p: Coeffs, dt: real, i: nat, j: nat, k: nat): (c: real)
    requires Shaped(g, nx, ny, nz) && i < nx && j < ny && k < nz
    requires p.dx != 0.0 && p.dy != 0.0 && p.dz != 0.0
  {
    var c0 := g[i][j][k];
    var c1 := if i > 0 then Advect(c0, g[i - 1][j][k], p.u, dt, p.dx) else c0;
    var c2 := if j > 0 then Advect(c1, g[i][j - 1][k], p.v, dt, p.dy) else c1;
    var c3 := if k > 0 then Advect(c2, g[i][j][k - 1], p.w, dt, p.dz) else c2;
    var c4 := if 0 < i < nx - 1 then Diffuse(c3, g[i - 1][j][k], g[i + 1][j][k], p.D, dt, p.dx) else c3;
    var c5 := if 0 < j < ny - 1 then Diffuse(c4, g[i][j - 1][k], g[i][j + 1][k], p.D, dt, p.dy) else c4;
    var c6 := if 0 < k < nz - 1 then Diffuse(c5, g[i][j][k - 1], g[i][j][k + 1], p.D, dt, p.dz) else c5;
    c6
  }

  /** The double-buffered update: a fresh field of the same shape, every cell
      computed from the old field. The lowest corner has no upstream
      neighbour on any axis and is not interior on any axis, so it keeps its
      value. */
  function Stencil(g: Field, nx: nat, ny: nat, nz: nat, p: Coeffs, dt: real): (r: Field)
    requires Shaped(g, nx, ny, nz)
    requires p.dx != 0.0 && p.dy != 0.0 && p.dz != 0.0
    ensures Shaped(r, nx, ny, nz)
    ensures nx > 0 && ny > 0 && nz > 0 ==> r[0][0][0] == g[0][0][0]
  {
    seq(nx, i requires 0 <= i < nx =>
      seq(ny, j requires 0 <= j < ny =>
        seq(nz, k requires 0 <= k < nz => Updated(g, nx, ny, nz, p, dt, i, j, k))))
  }

  /** Cell (a, b, c) is (i, j, k) itself or one of its six axis neighbours. */
  predicate Near(i: int, j: int, k: int, a: int, b: int, c: int) {
    || (a == i && b == j && (c == k || c == k - 1 || c == k + 1))
    || (a == i && c == k && (b == j - 1 || b == j + 1))
    || (b == j && c == k && (a == i - 1 || a == i + 1))
  }

  /** Locality: the new value of a cell depends on nothing but the old values
      of the cell and its axis neighbours. */
  lemma StencilLocal(g: Field, h: Field, nx: nat, ny: nat, nz: nat, p: Coeffs, dt: real, i: nat, j: nat, k: nat)
    requires Shaped(g, nx, ny, nz) && Shaped(h, nx, ny, nz)
    requires p.dx != 0.0 && p.dy != 0.0 && p.dz != 0.0
    requires i < nx && j < ny && k < nz
    requires forall a, b, c :: 0 <= a < nx && 0 <= b < ny && 0 <= c < nz && Near(i, j, k, a, b, c) ==>
      g[a][b][c] == h[a][b][c]
    ensures Stencil(g, nx, ny, nz, p, dt)[i][j][k] == Stencil(h, nx, ny, nz, p, dt)[i][j][k]
  {
    var g' := Stencil(g, nx, ny, nz, p, dt);
    var h' := Stencil(h, nx, ny, nz, p, dt);
    assert g'[i][j][k] == Updated(g, nx, ny, nz, p, dt, i, j, k);
    assert h'[i][j][k] == Updated(h, nx, ny, nz, p, dt, i, j, k);
    assert Near(i, j, k, i, j, k);
    if i > 0 { assert Near(i, j, k, i - 1, j, k); }
    if i < nx - 1 { assert Near(i, j, k, i + 1, j, k); }
    if j > 0 { assert Near(i, j, k, i, j - 1, k); }
    if j < ny - 1 { assert Near(i, j, k, i, j + 1, k); }
    if k > 0 { assert Near(i, j, k, i, j, k - 1); }
    if k < nz - 1 { assert Near(i, j, k, i, j, k + 1); }
  }

  /** With no wind and no diffusion the stencil returns the old field. */
  lemma StencilNoFlow(g: Field, nx: nat, ny: nat, nz: nat, p: Coeffs, dt: real)
    requires Shaped(g, nx, ny, nz)
    requires p.dx != 0.0 && p.dy != 0.0 && p.dz != 0.0
    requires p.u == 0.0 && p.v == 0.0 && p.w == 0.0 && p.D == 0.0
    ensures Stencil(g, nx, ny, nz, p, dt) == g
  {
    var r := Stencil(g, nx, ny, nz, p, dt);
    forall i, j, k | 0 <= i < nx && 0 <= j < ny && 0 <= k < nz
      ensures r[i][j][k] == g[i][j][k]
    {
      assert r[i][j][k] == Updated(g, nx, ny, nz, p, dt, i, j, k);
      TermsVanish(g[i][j][k], 0.0, 0.0, 0.0, dt, p.dx);
      TermsVanish(g[i][j][k], 0.0, 0.0, 0.0, dt, p.dy);
      TermsVanish(g[i][j][k], 0.0, 0.0, 0.0, dt, p.dz);
      forall x, y, h | h != 0.0
        ensures Advect(g[i][j][k], x, 0.0, dt, h) == g[i][j][k]
        ensures Diffuse(g[i][j][k], x, y, 0.0, dt, h) == g[i][j][k]
      {
        TermsVanish(g[i][j][k], x, y, 0.0, dt, h);
      }
    }
    FieldExt(r, g, nx, ny, nz);
  }

  predicate Uniform(g: Field, nx: nat, ny: nat, nz: nat, c: real)
    requires Shaped(g, nx, ny, nz)
  {
    forall i, j, k :: 0 <= i < nx && 0 <= j < ny && 0 <= k < nz ==> g[i][j][k] == c
  }

  /** A uniform field is steady under any wind, diffusion and time step:
      every upwind difference and every second difference is zero. */
  lemma StencilUniform(g: Field, nx: nat, ny: nat, nz: nat, p: Coeffs, dt: real, c: real)
    requires Shaped(g, nx, ny, nz) && Uniform(g, nx, ny, nz, c)
    requires p.dx != 0.0 && p.dy != 0.0 && p.dz != 0.0
    ensures Stencil(g, nx, ny, nz, p, dt) == g
  {
    var r := Stencil(g, nx, ny, nz, p, dt);
    forall i, j, k | 0 <= i < nx && 0 <= j < ny && 0 <= k < nz
      ensures r[i][j][k] == g[i][j][k]
    {
      assert r[i][j][k] == Updated(g, nx, ny, nz, p, dt, i, j, k);
      assert g[i][j][k] == c;
      if i > 0 { assert g[i - 1][j][k] == c; }
      if i < nx - 1 { assert g[i + 1][j][k] == c; }
      if j > 0 { assert g[i][j - 1][k] == c; }
      if j < ny - 1 { assert g[i][j + 1][k] == c; }
      if k > 0 { assert g[i][j][k - 1] == c; }
      if k < nz - 1 { assert g[i][j][k + 1] == c; }
      forall s, h | h != 0.0
        ensures Advect(c, c, s, dt, h) == c && Diffuse(c, c, c, s, dt, h) == c
      {
        TermsVanish(c, c, c, s, dt, h);
      }
    }
    FieldExt(r, g, nx, ny, nz);
  }

  /** An advection term whose Courant number speed * dt / h is 1 carries
      the upstream value over exactly. */
  lemma AdvectFullStep(c: real, upstream: real, speed: real, dt: real, h: real)
    requires h != 0.0 && dt * speed == h
    ensures Advect(c, upstream, speed, dt, h) == upstream
  {
    assert dt * speed * (c - upstream) == h * (c - upstream);
    assert h * (c - upstream) / h == c - upstream;
  }

  /** With positive D and dt, a diffusion term moves the value toward the
      mean of its two neighbours: up when the value lies below it, down
      when above. */
  lemma DiffuseTowardMean(c: real, lo: real, hi: real, D: real, dt: real, h: real)
    requires h != 0.0 && dt > 0.0 && D > 0.0
    ensures lo + hi > 2.0 * c ==> Diffuse(c, lo, hi, D, dt, h) > c
    ensures lo + hi < 2.0 * c ==> Diffuse(c, lo, hi, D, dt, h) < c
  {
    var e := hi - 2.0 * c + lo;
    assert dt * D > 0.0;
    assert h * h > 0.0;
    if e > 0.0 {
      assert dt * D * e > 0.0;
    } else if e < 0.0 {
      assert dt * D * e < 0.0;
    }
  }

  /** Advection along x alone at Courant number 1: every cell past the
      first takes the old value of its upstream neighbour, so the field
      shifts by one cell along x; the first cell keeps its value. */
  lemma StencilShift(g: Field, nx: nat, ny: nat, nz: nat, p: Coeffs, dt: real)
    requires Shaped(g, nx, ny, nz)
    requires p.dx != 0.0 && p.dy != 0.0 && p.dz != 0.0
    requires p.v == 0.0 && p.w == 0.0 && p.D == 0.0 && dt * p.u == p.dx
    ensures forall i, j, k :: 0 <= i < nx && 0 <= j < ny && 0 <= k < nz ==>
      Stencil(g, nx, ny, nz, p, dt)[i][j][k] == if i > 0 then g[i - 1][j][k] else g[i][j][k]
  {
    var r := Stencil(g, nx, ny, nz, p, dt);
    forall i, j, k | 0 <= i < nx && 0 <= j < ny && 0 <= k < nz
      ensures r[i][j][k] == if i > 0 then g[i - 1][j][k] else g[i][j][k]
    {
      assert r[i][j][k] == Updated(g, nx, ny, nz, p, dt, i, j, k);
      var c1 := if i > 0 then g[i - 1][j][k] else g[i][j][k];
      if i > 0 {
        AdvectFullStep(g[i][j][k], g[i - 1][j][k], p.u, dt, p.dx);
      }
      forall x, y, h | h != 0.0
        ensures Advect(c1, x, 0.0, dt, h) == c1
        ensures Diffuse(c1, x, y, 0.0, dt, h) == c1
      {
        TermsVanish(c1, x, y, 0.0, dt, h);
      }
    }
  }

  /** Diffusion along a single row (ny = nz = 1) with no wind: every
      interior cell takes one diffusion term over its two neighbours' old
      values, and the two end cells keep theirs. */
  lemma StencilRowDiffusion(g: Field, nx: nat, p: Coeffs, dt: real)
    requires Shaped(g, nx, 1, 1)
    requires p.dx != 0.0 && p.dy != 0.0 && p.dz != 0.0
    requires p.u == 0.0 && p.v == 0.0 && p.w == 0.0
    ensures forall i :: 0 < i < nx - 1 ==>
      Stencil(g, nx, 1, 1, p, dt)[i][0][0] == Diffuse(g[i][0][0], g[i - 1][0][0], g[i + 1][0][0], p.D, dt, p.dx)
    ensures nx > 0 ==> Stencil(g, nx, 1, 1, p, dt)[0][0][0] == g[0][0][0]
    ensures nx > 0 ==> Stencil(g, nx, 1, 1, p, dt)[nx - 1][0][0] == g[nx - 1][0][0]
  {
    var r := Stencil(g, nx, 1, 1, p, dt);
    forall i | 0 <= i < nx
      ensures r[i][0][0] == if 0 < i < nx - 1 then Diffuse(g[i][0][0], g[i - 1][0][0], g[i + 1][0][0], p.D, dt, p.dx) else g[i][0][0]
    {
      assert r[i][0][0] == Updated(g, nx, 1, 1, p, dt, i, 0, 0);
      if i > 0 {
        TermsVanish(g[i][0][0], g[i - 1][0][0], g[i - 1][0][0], 0.0, dt, p.dx);
      }
    }
  }

  /** Diffusion smooths a row: with positive D and dt and no wind, an
      interior cell below the mean of its neighbours rises and one above
      it falls. */
  lemma StencilRowSmooths(g: Field, nx: nat, p: Coeffs, dt: real, i: nat)
    requires Shaped(g, nx, 1, 1) && 0 < i < nx - 1
    requires p.dx != 0.0 && p.dy != 0.0 && p.dz != 0.0
    requires p.u == 0.0 && p.v == 0.0 && p.w == 0.0 && p.D > 0.0 && dt > 0.0
    ensures g[i - 1][0][0] + g[i + 1][0][0] > 2.0 * g[i][0][0] ==> Stencil(g, nx, 1, 1, p, dt)[i][0][0] > g[i][0][0]
    ensures g[i - 1][0][0] + g[i + 1][0][0] < 2.0 * g[i][0][0] ==> Stencil(g, nx, 1, 1, p, dt)[i][0][0] < g[i][0][0]
  {
    StencilRowDiffusion(g, nx, p, dt);
    DiffuseTowardMean(g[i][0][0], g[i - 1][0][0], g[i + 1][0][0], p.D, dt, p.dx);
  }

  // ---------------------------------------------------------------------
  // Emission and the top boundary

  /** Adds `amount` to the ground cell of c when c lies inside
      [0, nx) x [0, ny); a cell outside is skipped. */
  function Deposit(g: Field, c: Cell, amount: real, nx: nat, ny: nat, nz: nat): (r: Field)
    requires Shaped(g, nx, ny, nz) && nz > 0
    ensures Shaped(r, nx, ny, nz)
  {
    if InRange(c, nx, ny) then
      var r := AddAt(g, c.i, c.j, 0, amount);
      assert Shaped(r, nx, ny, nz) by {
        forall i | 0 <= i < nx
          ensures |r[i]| == ny && forall j :: 0 <= j < ny ==> |r[i][j]| == nz
        {
          if i == c.i {
            forall j | 0 <= j < ny
              ensures |r[i][j]| == nz
            {
              if j != c.j { assert r[i][j] == g[i][j]; }
            }
          }
        }
      }
      r
    else g
  }

  lemma DepositCell(g: Field, c: Cell, amount: real, nx: nat, ny: nat, nz: nat, i: nat, j: nat, k: nat)
    requires Shaped(g, nx, ny, nz) && nz > 0
    requires i < nx && j < ny && k < nz
    ensures Deposit(g, c, amount, nx, ny, nz)[i][j][k] ==
      g[i][j][k] + (if k == 0 && c == Cell(i, j) then amount else 0.0)
  {
    if InRange(c, nx, ny) {
      AddAtCell(g, c.i, c.j, 0, amount, i, j, k);
    }
  }

  /** Emission from one source: the cells are visited in list order. */
  function Emit(g: Field, cells: seq<Cell>, amount: real, nx: nat, ny: nat, nz: nat): (r: Field)
    requires Shaped(g, nx, ny, nz) && nz > 0
    ensures Shaped(r, nx, ny, nz)
    decreases |cells|
  {
    if |cells| == 0 then g
    else Emit(Deposit(g, cells[0], amount, nx, ny, nz), cells[1..], amount, nx, ny, nz)
  }

  /** How many times c occurs in the list. */
  function Count(cells: seq<Cell>, c: Cell): (n: nat)
  {
    if |cells| == 0 then 0
    else (if cells[0] == c then 1 else 0) + Count(cells[1..], c)
  }

  /** How many listed cells lie inside the horizontal extent. */
  function InRangeCount(cells: seq<Cell>, nx: nat, ny: nat): (n: nat)
  {
    if |cells| == 0 then 0
    else (if InRange(cells[0], nx, ny) then 1 else 0) + InRangeCount(cells[1..], nx, ny)
  }

  /** What n separate additions of a contribute. */
  function Times(n: nat, a: real): (r: real)
  {
    if n == 0 then 0.0 else Times(n - 1, a) + a
  }

  /** n additions of a come to n times a. */
  lemma {:induction false} TimesIsProduct(n: nat, a: real)
    ensures Times(n, a) == n as real * a
  {
    if n > 0 {
      TimesIsProduct(n - 1, a);
    }
  }

  /** Emission raises each ground cell by `amount` once per occurrence of
      the cell in the list. */
  lemma {:induction false} EmitGround(g: Field, cells: seq<Cell>, amount: real, nx: nat, ny: nat, nz: nat, i: nat, j: nat)
    requires Shaped(g, nx, ny, nz) && nz > 0
    requires i < nx && j < ny
    ensures Emit(g, cells, amount, nx, ny, nz)[i][j][0] == g[i][j][0] + Times(Count(cells, Cell(i, j)), amount)
    decreases |cells|
  {
    if |cells| > 0 {
      var d := Deposit(g, cells[0], amount, nx, ny, nz);
      EmitGround(d, cells[1..], amount, nx, ny, nz, i, j);
      DepositCell(g, cells[0], amount, nx, ny, nz, i, j, 0);
    }
  }

  /** Emission leaves every cell above the ground alone. */
  lemma {:induction false} EmitAboveGround(g: Field, cells: seq<Cell>, amount: real, nx: nat, ny: nat, nz: nat, i: nat, j: nat, k: nat)
    requires Shaped(g, nx, ny, nz) && nz > 0
    requires i < nx && j < ny && 0 < k < nz
    ensures Emit(g, cells, amount, nx, ny, nz)[i][j][k] == g[i][j][k]
    decreases |cells|
  {
    if |cells| > 0 {
      var d := Deposit(g, cells[0], amount, nx, ny, nz);
      EmitAboveGround(d, cells[1..], amount, nx, ny, nz, i, j, k);
      DepositCell(g, cells[0], amount, nx, ny, nz, i, j, k);
    }
  }

  /** Emission adds `amount` to the total once per in-range listed cell. */
  lemma {:induction false} EmitTotal(g: Field, cells: seq<Cell>, amount: real, nx: nat, ny: nat, nz: nat)
    requires Shaped(g, nx, ny, nz) && nz > 0
    ensures Total(Emit(g, cells, amount, nx, ny, nz)) == Total(g) + Times(InRangeCount(cells, nx, ny), amount)
    decreases |cells|
  {
    if |cells| > 0 {
      var c := cells[0];
      var d := Deposit(g, c, amount, nx, ny, nz);
      EmitTotal(d, cells[1..], amount, nx, ny, nz);
      if InRange(c, nx, ny) {
        TotalAddAt(g, c.i, c.j, 0, amount);
      }
    }
  }

  /** The open-top rule: every cell of the top layer k = nz - 1 becomes 0,
      all other cells keep their value. */
  function OpenTop(g: Field, nx: nat, ny: nat, nz: nat): (r: Field)
    requires Shaped(g, nx, ny, nz) && nz > 0
    ensures Shaped(r, nx, ny, nz)
    ensures forall i, j :: 0 <= i < nx && 0 <= j < ny ==> r[i][j][nz - 1] == 0.0
    ensures forall i, j, k :: 0 <= i < nx && 0 <= j < ny && 0 <= k < nz - 1 ==> r[i][j][k] == g[i][j][k]
  {
    seq(nx, i requires 0 <= i < nx =>
      seq(ny, j requires 0 <= j < ny => g[i][j][nz - 1 := 0.0]))
  }
}

=== FILE: numeric.dfy ===
/** The numeric conversions of the modelled Python code, over exact reals. */
module Numeric {

  /** `int(x)` on a float: truncation toward zero, which is not the floor
      for negative arguments. The two bounds determine the result uniquely. */
  function Trunc(x: real): (n: int)
    ensures 0.0 <= x ==> n as real <= x < n as real + 1.0
    ensures x < 0.0 ==> n as real - 1.0 < x <= n as real
  {
    if x >= 0.0 then x.Floor else -((-x).Floor)
  }

  /** `x % 24` on a float: the remainder of floored division, which lies in
      [0, 24) even when x is negative (unlike C's fmod). */
  function Mod24(x: real): (r: real)
    ensures 0.0 <= r < 24.0
    ensures (x - r) / 24.0 == ((x - r) / 24.0).Floor as real
  {
    x - (x / 24.0).Floor as real * 24.0
  }

  /** Shifting the argument by one day leaves the remainder unchanged. */
  lemma Mod24Periodic(x: real)
    ensures Mod24(x + 24.0) == Mod24(x)
  {
    assert ((x + 24.0) / 24.0).Floor == (x / 24.0).Floor + 1;
  }

  /** A value already in [0, 24) is its own remainder. */
  lemma Mod24OfRange(x: real)
    requires 0.0 <= x < 24.0
    ensures Mod24(x) == x
  {
    assert (x / 24.0).Floor == 0;
  }

  /** A dimension `int(span / size) + 1`: positive unless the bounds are
      reversed by a whole cell size or more, and exactly 1 when the span is
      less than one cell size either way (so empty bounds give 1). */
  lemma DimensionOfSpan(x: real)
    ensures Trunc(x) + 1 >= 1 <==> x > -1.0
    ensures -1.0 < x < 1.0 ==> Trunc(x) + 1 == 1
  {
  }

  /** `len(range(n))`: how many indices a `for _ in range(n)` loop visits. */
  function Len(n: int): (count: nat)
  {
    if n > 0 then n else 0
  }
}

=== FILE: ozone.dfy ===
/** The ozone transport model: construction with derived grid dimensions,
    registration of road sources with their cached cells, the time step
    (stencil, emission, top boundary, commit) and the total-mass diagnostic. */
module Ozone {
  import opened Results
  import opened Numeric
  import opened Unique
  import opened Grid
  import opened Raster

  /** A coordinate range (min, max) along one horizontal axis. */
  datatype Span = Span(lo: real, hi: real)

  /** The constructor arguments of the model. */
  datatype Config = Config(
    northSouth: Span, westEast: Span, topAltitude: real,
    dx: real, dy: real, dz: real,
    u: real, v: real, w: real, D: real,
    topOpen: bool)

  /** The constructor with every defaulted argument left at its default. */
  function DefaultConfig(northSouth: Span, westEast: Span): (c: Config) {
    Config(northSouth, westEast, 2000.0, 1000.0, 1000.0, 100.0, 1.0, 0.0, 0.1, 0.1, true)
  }

  /** A registered source together with the cells cached at registration. */
  datatype Registered = Registered(road: RoadSource, cells: seq<Cell>)

  /** The model's state. nx, ny, nz are the derived dimensions exactly as
      computed, which may be 0 or negative; the field has Len(n) entries
      along each axis, as many as `range(n)` visits. */
  datatype Model = Model(
    config: Config, nx: int, ny: int, nz: int,
    grid: Field, sources: seq<Registered>, time: real)

  predicate SizesNonZero(c: Config) {
    c.dx != 0.0 && c.dy != 0.0 && c.dz != 0.0
  }

  /** The dimensions the constructor derives: the truncated span over the
      cell size, plus one. */
  function DerivedNx(c: Config): (n: int)
    requires SizesNonZero(c)
  {
    Trunc((c.northSouth.hi - c.northSouth.lo) / c.dx) + 1
  }

  function DerivedNy(c: Config): (n: int)
    requires SizesNonZero(c)
  {
    Trunc((c.westEast.hi - c.westEast.lo) / c.dy) + 1
  }

  function DerivedNz(c: Config): (n: int)
    requires SizesNonZero(c)
  {
    Trunc(c.topAltitude / c.dz) + 1
  }

  /** What every constructed model satisfies and every step keeps. */
  predicate Valid(m: Model) {
    && SizesNonZero(m.config)
    && m.nx == DerivedNx(m.config)
    && m.ny == DerivedNy(m.config)
    && m.nz == DerivedNz(m.config)
    && Shaped(m.grid, Len(m.nx), Len(m.ny), Len(m.nz))
  }

  /** Every cached cell list is the rasterisation of its road at the
      model's cell sizes. */
  predicate CachesCurrent(m: Model)
    requires SizesNonZero(m.config)
  {
    forall s :: 0 <= s < |m.sources| ==> m.sources[s].cells == Cells(m.sources[s].road, m.config.dx, m.config.dy)
  }

  function Coefficients(c: Config): (p: Coeffs) {
    Coeffs(c.u, c.v, c.w, c.D, c.dx, c.dy, c.dz)
  }

  /** The constructor: derives the dimensions and allocates a zero field;
      the source list and the clock are taken as given (by default empty and
      0). A cell size of 0 raises ZeroDivisionError; no other argument is
      checked, and given sources keep whatever cells they came with. */
  function New(c: Config, sources: seq<Registered>, time: real): (r: Result<Model>)
    ensures r.Err? <==> !SizesNonZero(c)
    ensures r.Err? ==> r.error == ZeroDivision
    ensures r.Ok? ==> Valid(r.value)
    ensures r.Ok? ==> r.value.config == c && r.value.sources == sources && r.value.time == time
    ensures r.Ok? && sources == [] ==> CachesCurrent(r.value)
    ensures r.Ok? ==> forall i, j, k :: 0 <= i < |r.value.grid| && 0 <= j < |r.value.grid[i]| && 0 <= k < |r.value.grid[i][j]| ==>
      r.value.grid[i][j][k] == 0.0
    ensures r.Ok? ==> Total(r.value.grid) == 0.0
  {
    if !SizesNonZero(c) then Err(ZeroDivision)
    else
      var nx := DerivedNx(c);
      var ny := DerivedNy(c);
      var nz := DerivedNz(c);
      var g := Zeros(Len(nx), Len(ny), Len(nz));
      TotalOfZeros(g, Len(nx), Len(ny), Len(nz));
      Ok(Model(c, nx, ny, nz, g, sources, time))
  }

  /** The example run's domain, 0..16900 by 0..20000 with default cell
      sizes, has 17 x 21 x 21 cells. */
  lemma ExampleDimensions()
    ensures New(DefaultConfig(Span(0.0, 16900.0), Span(0.0, 20000.0)), [], 0.0).Ok?
    ensures var m := New(DefaultConfig(Span(0.0, 16900.0), Span(0.0, 20000.0)), [], 0.0).value;
      m.nx == 17 && m.ny == 21 && m.nz == 21
  {
  }

  /** Registration rasterises the road once, at the model's cell sizes, and
      appends it with its cells; nothing else changes. */
  function AddRoadSource(m: Model, road: RoadSource): (r: Model)
    requires Valid(m)
    ensures Valid(r)
    ensures r.config == m.config && r.nx == m.nx && r.ny == m.ny && r.nz == m.nz
    ensures r.grid == m.grid && r.time == m.time
    ensures |r.sources| == |m.sources| + 1 && r.sources[..|m.sources|] == m.sources
    ensures r.sources[|m.sources|].road == road
    ensures r.sources[|m.sources|].cells == Cells(road, m.config.dx, m.config.dy)
    ensures CachesCurrent(m) ==> CachesCurrent(r)
  {
    m.(sources := m.sources + [Registered(road, Cells(road, m.config.dx, m.config.dy))])
  }

  // ---------------------------------------------------------------------
  // The time step

  /** A registered source as the emission phase sees it: its cached cells
      and what its rate callable returned at the pre-step time (None when
      it raised). */
  datatype Emitter = Emitter(cells: seq<Cell>, rate: Option<real>)

  /** Each source's rate callable applied to time t. The callables are pure,
      so reading them all up front yields what reading each one as its turn
      comes yields. */
  function Emitters(sources: seq<Registered>, t: real): (r: seq<Emitter>)
    ensures |r| == |sources|
    ensures forall s :: 0 <= s < |r| ==> r[s].cells == sources[s].cells && r[s].rate == sources[s].road.rate(t)
    ensures AllRated(r) <==> RatesDefined(sources, t)
  {
    seq(|sources|, s requires 0 <= s < |sources| => Emitter(sources[s].cells, sources[s].road.rate(t)))
  }

  /** Every source's rate callable returns a value at time t. */
  predicate RatesDefined(sources: seq<Registered>, t: real) {
    forall s :: 0 <= s < |sources| ==> sources[s].road.rate(t).Some?
  }

  predicate AllRated(es: seq<Emitter>) {
    forall s :: 0 <= s < |es| ==> es[s].rate.Some?
  }

  /** No emitter lists a cell inside the horizontal extent. */
  predicate NoneInRange(es: seq<Emitter>, nx: nat, ny: nat) {
    forall s :: 0 <= s < |es| ==> InRangeCount(es[s].cells, nx, ny) == 0
  }

  /** The emission phase: emitters in registration order, each adding
      rate * dt to the ground cell of each of its in-range cells. A raising
      callable raises SourceRaised with its position; when the columns are
      empty (nz = 0) the first in-range cell raises IndexOutOfRange. */
  function Inject(g: Field, es: seq<Emitter>, dt: real, nx: nat, ny: nat, nz: nat, first: nat): (r: Result<Field>)
    requires Shaped(g, nx, ny, nz)
    ensures r.Ok? ==> Shaped(r.value, nx, ny, nz)
    decreases |es|
  {
    if |es| == 0 then Ok(g)
    else
      match es[0].rate
      case None => Err(SourceRaised(first))
      case Some(rate) =>
        if nz == 0 then
          if InRangeCount(es[0].cells, nx, ny) > 0 then Err(IndexOutOfRange)
          else Inject(g, es[1..], dt, nx, ny, nz, first + 1)
        else Inject(Emit(g, es[0].cells, es[0].rate.value * dt, nx, ny, nz), es[1..], dt, nx, ny, nz, first + 1)
  }

  lemma TailFacts(es: seq<Emitter>, nx: nat, ny: nat)
    requires |es| > 0
    ensures AllRated(es) <==> es[0].rate.Some? && AllRated(es[1..])
    ensures NoneInRange(es, nx, ny) <==> InRangeCount(es[0].cells, nx, ny) == 0 && NoneInRange(es[1..], nx, ny)
  {
    assert forall s :: 0 <= s < |es[1..]| ==> es[1..][s] == es[s + 1];
    assert forall s :: 1 <= s < |es| ==> es[s] == es[1..][s - 1];
  }

  /** One emitter of the emission phase, for each way its turn can go. */
  lemma InjectUnfold(g: Field, es: seq<Emitter>, dt: real, nx: nat, ny: nat, nz: nat, first: nat)
    requires Shaped(g, nx, ny, nz) && |es| > 0
    ensures es[0].rate.None? ==> Inject(g, es, dt, nx, ny, nz, first) == Err(SourceRaised(first))
    ensures es[0].rate.Some? && nz == 0 && InRangeCount(es[0].cells, nx, ny) > 0 ==>
      Inject(g, es, dt, nx, ny, nz, first) == Err(IndexOutOfRange)
    ensures es[0].rate.Some? && nz == 0 && InRangeCount(es[0].cells, nx, ny) == 0 ==>
      Inject(g, es, dt, nx, ny, nz, first) == Inject(g, es[1..], dt, nx, ny, nz, first + 1)
    ensures es[0].rate.Some? && nz > 0 ==>
      Inject(g, es, dt, nx, ny, nz, first) == Inject(Emit(g, es[0].cells, es[0].rate.value * dt, nx, ny, nz), es[1..], dt, nx, ny, nz, first + 1)
  {
  }

  /** The emission phase succeeds exactly when every callable returned a
      value and, if the columns are empty, no emitter lists an in-range
      cell; otherwise it raises SourceRaised for the first raising source or
      IndexOutOfRange, the latter only into empty columns. */
  lemma InjectOutcome(g: Field, es: seq<Emitter>, dt: real, nx: nat, ny: nat, nz: nat, first: nat)
    requires Shaped(g, nx, ny, nz)
    ensures var r := Inject(g, es, dt, nx, ny, nz, first);
      && (r.Ok? <==> AllRated(es) && (nz > 0 || NoneInRange(es, nx, ny)))
      && (r.Err? ==> r.error == IndexOutOfRange || r.error.SourceRaised?)
      && (r.Err? && r.error.SourceRaised? ==>
            first <= r.error.source < first + |es| && es[r.error.source - first].rate.None?)
      && (r.Err? && r.error.SourceRaised? ==> AllRated(es[..r.error.source - first]))
    ensures var r := Inject(g, es, dt, nx, ny, nz, first);
      && (r.Err? && r.error == IndexOutOfRange ==> nz == 0)
      && (nz > 0 && !AllRated(es) ==> r.Err? && r.error.SourceRaised?)
      && (r.Err? && r.error.SourceRaised? ==> nz > 0 || NoneInRange(es[..r.error.source - first], nx, ny))
  {
    InjectSucceeds(g, es, dt, nx, ny, nz, first);
    InjectErrors(g, es, dt, nx, ny, nz, first);
  }

  /** The success half of InjectOutcome: when the phase succeeds, and that
      a reported source is the first raising one. */
  lemma {:induction false} InjectSucceeds(g: Field, es: seq<Emitter>, dt: real, nx: nat, ny: nat, nz: nat, first: nat)
    requires Shaped(g, nx, ny, nz)
    ensures var r := Inject(g, es, dt, nx, ny, nz, first);
      && (r.Ok? <==> AllRated(es) && (nz > 0 || NoneInRange(es, nx, ny)))
      && (r.Err? ==> r.error == IndexOutOfRange || r.error.SourceRaised?)
      && (r.Err? && r.error.SourceRaised? ==>
            first <= r.error.source < first + |es| && es[r.error.source - first].rate.None?)
      && (r.Err? && r.error.SourceRaised? ==> AllRated(es[..r.error.source - first]))
    decreases |es|
  {
    if |es| > 0 {
      TailFacts(es, nx, ny);
      InjectUnfold(g, es, dt, nx, ny, nz, first);
      if es[0].rate.Some? && (nz > 0 || InRangeCount(es[0].cells, nx, ny) == 0) {
        var next := if nz == 0 then g else Emit(g, es[0].cells, es[0].rate.value * dt, nx, ny, nz);
        var r := Inject(next, es[1..], dt, nx, ny, nz, first + 1);
        assert Inject(g, es, dt, nx, ny, nz, first) == r;
        InjectSucceeds(next, es[1..], dt, nx, ny, nz, first + 1);
        if r.Err? && r.error.SourceRaised? {
          RatedPrefix(es, r.error.source - first, nx, ny);
        }
      }
    }
  }

  /** The error half of InjectOutcome: IndexOutOfRange only into empty
      columns, and with non-empty columns a raising callable always
      gives SourceRaised, reported after no in-range cell when the columns
      are empty. */
  lemma {:induction false} InjectErrors(g: Field, es: seq<Emitter>, dt: real, nx: nat, ny: nat, nz: nat, first: nat)
    requires Shaped(g, nx, ny, nz)
    ensures var r := Inject(g, es, dt, nx, ny, nz, first);
      && (r.Err? && r.error == IndexOutOfRange ==> nz == 0)
      && (nz > 0 && !AllRated(es) ==> r.Err? && r.error.SourceRaised?)
      && (r.Err? && r.error.SourceRaised? ==>
            first <= r.error.source <= first + |es| && (nz > 0 || NoneInRange(es[..r.error.source - first], nx, ny)))
    decreases |es|
  {
    if |es| > 0 {
      TailFacts(es, nx, ny);
      InjectUnfold(g, es, dt, nx, ny, nz, first);
      if es[0].rate.Some? && (nz > 0 || InRangeCount(es[0].cells, nx, ny) == 0) {
        var next := if nz == 0 then g else Emit(g, es[0].cells, es[0].rate.value * dt, nx, ny, nz);
        var r := Inject(next, es[1..], dt, nx, ny, nz, first + 1);
        assert Inject(g, es, dt, nx, ny, nz, first) == r;
        InjectErrors(next, es[1..], dt, nx, ny, nz, first + 1);
        if r.Err? && r.error.SourceRaised? && nz == 0 {
          RatedPrefix(es, r.error.source - first, nx, ny);
        }
      } else if es[0].rate.None? {
        assert es[..0] == [];
      }
    }
  }

  /** A prefix of at least one emitter is all rated, or lists no in-range
      cell, exactly when its head and the matching prefix of the tail are
      and do. */
  lemma RatedPrefix(es: seq<Emitter>, k: nat, nx: nat, ny: nat)
    requires 0 < k <= |es|
    ensures AllRated(es[..k]) <==> es[0].rate.Some? && AllRated(es[1..][..k - 1])
    ensures NoneInRange(es[..k], nx, ny) <==>
      InRangeCount(es[0].cells, nx, ny) == 0 && NoneInRange(es[1..][..k - 1], nx, ny)
  {
    assert es[..k][1..] == es[1..][..k - 1];
    TailFacts(es[..k], nx, ny);
  }

  /** What the emission phase adds to ground cell c: for each emitter, its
      rate times dt, added once per listing of c. */
  function Emission(es: seq<Emitter>, dt: real, c: Cell): (mass: real)
    requires AllRated(es)
  {
    if |es| == 0 then 0.0
    else
      TailFacts(es, 0, 0);
      Times(Count(es[0].cells, c), es[0].rate.value * dt) + Emission(es[1..], dt, c)
  }

  /** The mass the emission phase adds to the field: for each emitter, its
      rate times dt, added once per in-range listed cell. */
  function EmittedMass(es: seq<Emitter>, dt: real, nx: nat, ny: nat): (mass: real)
    requires AllRated(es)
  {
    if |es| == 0 then 0.0
    else
      TailFacts(es, nx, ny);
      Times(InRangeCount(es[0].cells, nx, ny), es[0].rate.value * dt) + EmittedMass(es[1..], dt, nx, ny)
  }

  /** The top boundary phase: with an open top, the top layer is zeroed;
      with empty columns that write raises IndexOutOfRange. */
  function Bound(g: Field, topOpen: bool, nx: nat, ny: nat, nz: nat): (r: Result<Field>)
    requires Shaped(g, nx, ny, nz)
    ensures r.Ok? ==> Shaped(r.value, nx, ny, nz)
    ensures r.Err? <==> topOpen && nz == 0 && nx > 0 && ny > 0
    ensures r.Ok? && topOpen && nz > 0 ==> forall i, j :: 0 <= i < nx && 0 <= j < ny ==> r.value[i][j][nz - 1] == 0.0
    ensures r.Ok? ==> forall i, j, k :: 0 <= i < nx && 0 <= j < ny && 0 <= k < nz && !(topOpen && k == nz - 1) ==>
      r.value[i][j][k] == g[i][j][k]
  {
    if !topOpen then Ok(g)
    else if nz == 0 then
      if nx > 0 && ny > 0 then Err(IndexOutOfRange) else Ok(g)
    else Ok(OpenTop(g, nx, ny, nz))
  }

  /** `step(dt)`: the stencil builds a new field from the stored one, the
      sources add their emission at the pre-step time, the top boundary is
      applied, and only then are the field and the time committed. */
  function Step(m: Model, dt: real): (r: Result<Model>)
    requires Valid(m)
    ensures r.Ok? ==> Valid(r.value)
    ensures r.Ok? ==> r.value.config == m.config && r.value.nx == m.nx && r.value.ny == m.ny && r.value.nz == m.nz
    ensures r.Ok? ==> r.value.sources == m.sources && r.value.time == m.time + dt
  {
    var nx := Len(m.nx);
    var ny := Len(m.ny);
    var nz := Len(m.nz);
    var advanced := Stencil(m.grid, nx, ny, nz, Coefficients(m.config), dt);
    var emitted :- Inject(advanced, Emitters(m.sources, m.time), dt, nx, ny, nz, 0);
    var bounded :- Bound(emitted, m.config.topOpen, nx, ny, nz);
    Ok(m.(grid := bounded, time := m.time + dt))
  }

  /** A step succeeds exactly when every rate callable returns a value at
      the pre-step time and, if the columns are empty, nothing is written
      into them: no in-range source cell and no open top over a non-empty
      horizontal extent. A raising callable is reported by its position. */
  lemma StepOutcome(m: Model, dt: real)
    requires Valid(m)
    ensures var r := Step(m, dt);
      && (r.Ok? <==>
            && RatesDefined(m.sources, m.time)
            && (Len(m.nz) > 0 || (NoneInRange(Emitters(m.sources, m.time), Len(m.nx), Len(m.ny))
                                  && !(m.config.topOpen && Len(m.nx) > 0 && Len(m.ny) > 0))))
      && (r.Err? && r.error.SourceRaised? ==>
            r.error.source < |m.sources| && m.sources[r.error.source].road.rate(m.time).None?)
      && (r.Err? && r.error.SourceRaised? ==> RatesDefined(m.sources[..r.error.source], m.time))
    ensures var r := Step(m, dt);
      && (r.Err? ==> r.error != ZeroDivision)
      && (r.Err? && r.error == IndexOutOfRange ==> Len(m.nz) == 0)
      && (Len(m.nz) > 0 && !RatesDefined(m.sources, m.time) ==> r.Err? && r.error.SourceRaised?)
  {
    var nx := Len(m.nx);
    var ny := Len(m.ny);
    var nz := Len(m.nz);
    var es := Emitters(m.sources, m.time);
    var advanced := Stencil(m.grid, nx, ny, nz, Coefficients(m.config), dt);
    InjectOutcome(advanced, es, dt, nx, ny, nz, 0);
    var r := Step(m, dt);
    if r.Err? && r.error.SourceRaised? {
      EmittersPrefix(m.sources, m.time, r.error.source);
    }
  }

  /** The emitters of a prefix of the sources are the prefix of their
      emitters. */
  lemma EmittersPrefix(sources: seq<Registered>, t: real, k: nat)
    requires k <= |sources|
    ensures Emitters(sources, t)[..k] == Emitters(sources[..k], t)
  {
  }

  /** With an open top, every cell of the top layer is 0 after a step, even
      when that layer is the ground layer (nz = 1). */
  lemma StepTopOpen(m: Model, dt: real)
    requires Valid(m) && Step(m, dt).Ok? && m.config.topOpen
    ensures forall i, j :: 0 <= i < Len(m.nx) && 0 <= j < Len(m.ny) ==> Step(m, dt).value.grid[i][j][Len(m.nz) - 1] == 0.0
  {
    StepOutcome(m, dt);
  }

  // ---------------------------------------------------------------------
  // What one step does to each cell

  /** The emission phase raises each ground cell by exactly Emission. */
  lemma {:induction false} InjectGround(g: Field, es: seq<Emitter>, dt: real, nx: nat, ny: nat, nz: nat, first: nat, i: nat, j: nat)
    requires Shaped(g, nx, ny, nz) && nz > 0 && i < nx && j < ny
    requires AllRated(es)
    ensures Inject(g, es, dt, nx, ny, nz, first).Ok?
    ensures Inject(g, es, dt, nx, ny, nz, first).value[i][j][0] == g[i][j][0] + Emission(es, dt, Cell(i, j))
    decreases |es|
  {
    if |es| > 0 {
      assert es[0].rate.Some? && AllRated(es[1..]) by { TailFacts(es, nx, ny); }
      var e := Emit(g, es[0].cells, es[0].rate.value * dt, nx, ny, nz);
      assert Inject(g, es, dt, nx, ny, nz, first) == Inject(e, es[1..], dt, nx, ny, nz, first + 1) by {
        InjectUnfold(g, es, dt, nx, ny, nz, first);
      }
      InjectGround(e, es[1..], dt, nx, ny, nz, first + 1, i, j);
      EmitGround(g, es[0].cells, es[0].rate.value * dt, nx, ny, nz, i, j);
    }
  }

  /** The emission phase leaves every cell above the ground alone. */
  lemma {:induction false} InjectAboveGround(g: Field, es: seq<Emitter>, dt: real, nx: nat, ny: nat, nz: nat, first: nat, i: nat, j: nat, k: nat)
    requires Shaped(g, nx, ny, nz) && i < nx && j < ny && 0 < k < nz
    requires AllRated(es)
    ensures Inject(g, es, dt, nx, ny, nz, first).Ok?
    ensures Inject(g, es, dt, nx, ny, nz, first).value[i][j][k] == g[i][j][k]
    decreases |es|
  {
    if |es| > 0 {
      TailFacts(es, nx, ny);
      InjectUnfold(g, es, dt, nx, ny, nz, first);
      var e := Emit(g, es[0].cells, es[0].rate.value * dt, nx, ny, nz);
      InjectAboveGround(e, es[1..], dt, nx, ny, nz, first + 1, i, j, k);
      EmitAboveGround(g, es[0].cells, es[0].rate.value * dt, nx, ny, nz, i, j, k);
    }
  }

  /** The value of every cell after a successful step: zero in an open top
      layer; otherwise the stencil's value, plus on the ground layer the
      emission of every source at its rate at the pre-step time. */
  lemma StepCell(m: Model, dt: real, i: nat, j: nat, k: nat)
    requires Valid(m) && Step(m, dt).Ok?
    requires i < Len(m.nx) && j < Len(m.ny) && k < Len(m.nz)
    ensures AllRated(Emitters(m.sources, m.time))
    ensures Step(m, dt).value.grid[i][j][k] ==
      if m.config.topOpen && k == Len(m.nz) - 1 then 0.0
      else (Stencil(m.grid, Len(m.nx), Len(m.ny), Len(m.nz), Coefficients(m.config), dt)[i][j][k]
        + (if k == 0 then Emission(Emitters(m.sources, m.time), dt, Cell(i, j)) else 0.0))
  {
    var nx := Len(m.nx);
    var ny := Len(m.ny);
    var nz := Len(m.nz);
    var es := Emitters(m.sources, m.time);
    var advanced := Stencil(m.grid, nx, ny, nz, Coefficients(m.config), dt);
    InjectOutcome(advanced, es, dt, nx, ny, nz, 0);
    if k == 0 {
      InjectGround(advanced, es, dt, nx, ny, nz, 0, i, j);
    } else {
      InjectAboveGround(advanced, es, dt, nx, ny, nz, 0, i, j, k);
    }
  }

  /** With no wind, no diffusion, no sources and a closed top, a step
      changes no cell, so the total mass is kept. */
  lemma StepHoldsStill(m: Model, dt: real)
    requires Valid(m)
    requires m.config.u == 0.0 && m.config.v == 0.0 && m.config.w == 0.0 && m.config.D == 0.0
    requires !m.config.topOpen && |m.sources| == 0
    ensures Step(m, dt).Ok?
    ensures Step(m, dt).value.grid == m.grid
    ensures Total(Step(m, dt).value.grid) == Total(m.grid)
  {
    StencilNoFlow(m.grid, Len(m.nx), Len(m.ny), Len(m.nz), Coefficients(m.config), dt);
  }

  lemma {:induction false} CountOfDistinct(cells: seq<Cell>, c: Cell)
    requires Distinct(cells)
    ensures Count(cells, c) == if c in cells then 1 else 0
  {
    if |cells| > 0 {
      assert Distinct(cells[1..]);
      CountOfDistinct(cells[1..], c);
      assert c in cells <==> cells[0] == c || c in cells[1..];
    }
  }

  /** Emission in isolation: from an all-zero field with no wind, no
      diffusion and a closed top, one registered source whose rate at the
      current time is r leaves r * dt in each ground cell it covers and 0 in
      every other cell. */
  lemma StepIsolation(m: Model, dt: real, r: real, i: nat, j: nat, k: nat)
    requires Valid(m) && CachesCurrent(m)
    requires m.config.u == 0.0 && m.config.v == 0.0 && m.config.w == 0.0 && m.config.D == 0.0
    requires !m.config.topOpen
    requires forall i, j, k :: 0 <= i < Len(m.nx) && 0 <= j < Len(m.ny) && 0 <= k < Len(m.nz) ==> m.grid[i][j][k] == 0.0
    requires |m.sources| == 1 && m.sources[0].road.rate(m.time) == Some(r)
    requires i < Len(m.nx) && j < Len(m.ny) && k < Len(m.nz)
    ensures Step(m, dt).Ok?
    ensures Step(m, dt).value.grid[i][j][k] == if k == 0 && Cell(i, j) in m.sources[0].cells then r * dt else 0.0
  {
    var cells := m.sources[0].cells;
    var es := Emitters(m.sources, m.time);
    assert es == [Emitter(cells, Some(r))];
    var stencil := Stencil(m.grid, Len(m.nx), Len(m.ny), Len(m.nz), Coefficients(m.config), dt);
    assert stencil[i][j][k] == 0.0 by {
      StencilNoFlow(m.grid, Len(m.nx), Len(m.ny), Len(m.nz), Coefficients(m.config), dt);
    }
    assert Step(m, dt).Ok? by { StepOutcome(m, dt); }
    StepCell(m, dt, i, j, k);
    assert Distinct(cells) by { assert cells == Cells(m.sources[0].road, m.config.dx, m.config.dy); }
    EmissionOfOne(es, dt, Cell(i, j), cells, r);
  }

  /** One step of Emission: the head emitter's share plus the rest. */
  lemma EmissionUnfold(es: seq<Emitter>, dt: real, c: Cell)
    requires |es| > 0 && AllRated(es)
    ensures AllRated(es[1..])
    ensures Emission(es, dt, c) == Times(Count(es[0].cells, c), es[0].rate.value * dt) + Emission(es[1..], dt, c)
  {
    TailFacts(es, 0, 0);
  }

  /** A single emitter over distinct cells emits rate * dt into each of
      them and nothing elsewhere. */
  lemma {:induction false} EmissionOfOne(es: seq<Emitter>, dt: real, c: Cell, cells: seq<Cell>, r: real)
    requires es == [Emitter(cells, Some(r))] && Distinct(cells)
    ensures AllRated(es)
    ensures Emission(es, dt, c) == if c in cells then r * dt else 0.0
  {
    assert AllRated(es);
    EmissionUnfold(es, dt, c);
    assert es[1..] == [];
    CountOfDistinct(cells, c);
    assert Times(1, r * dt) == r * dt && Times(0, r * dt) == 0.0;
  }

  lemma {:induction false} InjectTotal(g: Field, es: seq<Emitter>, dt: real, nx: nat, ny: nat, nz: nat, first: nat)
    requires Shaped(g, nx, ny, nz) && nz > 0
    requires AllRated(es)
    ensures Inject(g, es, dt, nx, ny, nz, first).Ok?
    ensures Total(Inject(g, es, dt, nx, ny, nz, first).value) == Total(g) + EmittedMass(es, dt, nx, ny)
    decreases |es|
  {
    if |es| > 0 {
      TailFacts(es, nx, ny);
      InjectUnfold(g, es, dt, nx, ny, nz, first);
      var e := Emit(g, es[0].cells, es[0].rate.value * dt, nx, ny, nz);
      InjectTotal(e, es[1..], dt, nx, ny, nz, first + 1);
      EmitTotal(g, es[0].cells, es[0].rate.value * dt, nx, ny, nz);
    }
  }

  /** Mass bookkeeping: with no wind, no diffusion and a closed top, a step
      raises the total mass by exactly the mass its sources emit into the
      grid; emission listed at cells outside the grid is lost. */
  lemma StepMass(m: Model, dt: real)
    requires Valid(m) && Len(m.nz) > 0
    requires m.config.u == 0.0 && m.config.v == 0.0 && m.config.w == 0.0 && m.config.D == 0.0
    requires !m.config.topOpen
    requires RatesDefined(m.sources, m.time)
    ensures AllRated(Emitters(m.sources, m.time))
    ensures Step(m, dt).Ok?
    ensures Total(Step(m, dt).value.grid) == Total(m.grid) + EmittedMass(Emitters(m.sources, m.time), dt, Len(m.nx), Len(m.ny))
  {
    var es := Emitters(m.sources, m.time);
    assert AllRated(es);
    StencilNoFlow(m.grid, Len(m.nx), Len(m.ny), Len(m.nz), Coefficients(m.config), dt);
    InjectTotal(m.grid, es, dt, Len(m.nx), Len(m.ny), Len(m.nz), 0);
  }

  // ---------------------------------------------------------------------
  // The stored state around a call, and repeated calls

  /** The model object after a call of `step`, and the exception it raised,
      if any. */
  datatype Outcome = Outcome(model: Model, raised: Option<Error>)

  /** A call of `step` on the stored model: the new field and time are
      committed only when every phase succeeded; a raising call leaves the
      stored field and time as they were. */
  function Call(m: Model, dt: real): (o: Outcome)
    requires Valid(m)
    ensures Valid(o.model) && o.model.sources == m.sources
    ensures o.raised.None? <==> Step(m, dt).Ok?
    ensures o.raised.Some? ==> o.model.grid == m.grid && o.model.time == m.time
    ensures o.raised.None? ==> o.model.time == m.time + dt
    ensures o.raised.None? ==> o.model == Step(m, dt).value
    ensures o.raised.Some? ==> o.raised.value == Step(m, dt).error && o.model == m
  {
    match Step(m, dt)
    case Ok(next) => Outcome(next, None)
    case Err(e) => Outcome(m, Some(e))
  }

  lemma MulPred(n: nat, dt: real)
    requires n > 0
    ensures dt + (n - 1) as real * dt == n as real * dt
  {
  }

  /** n successive steps of length dt, stopping at the first that raises. */
  function Run(m: Model, dt: real, n: nat): (r: Result<Model>)
    requires Valid(m)
    ensures r.Ok? ==> Valid(r.value) && r.value.config == m.config && r.value.sources == m.sources
    ensures r.Ok? ==> r.value.time == m.time + n as real * dt
    decreases n
  {
    if n == 0 then Ok(m)
    else
      match Step(m, dt)
      case Err(e) => Err(e)
      case Ok(next) =>
        MulPred(n, dt);
        Run(next, dt, n - 1)
  }

  /** With no wind, no diffusion, no sources and a closed top, any number of
      steps leaves the field, and so its total mass, as it was. */
  lemma {:induction false} RunHoldsStill(m: Model, dt: real, n: nat)
    requires Valid(m)
    requires m.config.u == 0.0 && m.config.v == 0.0 && m.config.w == 0.0 && m.config.D == 0.0
    requires !m.config.topOpen && |m.sources| == 0
    ensures Run(m, dt, n).Ok?
    ensures Run(m, dt, n).value.grid == m.grid
    ensures Total(Run(m, dt, n).value.grid) == Total(m.grid)
    decreases n
  {
    if n > 0 {
      StepHoldsStill(m, dt);
      RunHoldsStill(Step(m, dt).value, dt, n - 1);
    }
  }
}

=== FILE: parser.dfy ===
/** `parse_input`: reads an input file line by line into a dictionary from
    section names to lists of numbers. A line `#NAME` opens (or reopens and
    empties) a section; every other non-blank line after the first header
    contributes the number its first token spells, if any. */
module Parser {
  import opened Results
  import opened Unique
  import opened Text

  /** A number read from a data line: a Python int or float. */
  datatype Value = Int(i: int) | Float(x: real)

  /** A Python dict from section names to value lists: the keys in
      insertion order, and the entries. */
  datatype Dict = Dict(keys: seq<string>, entries: map<string, seq<Value>>)

  /** The keys are distinct and are exactly the names with entries. */
  ghost predicate WellFormed(d: Dict) {
    Distinct(d.keys) && (forall n :: n in d.entries <==> n in d.keys)
  }

  /** The loop's state: the dictionary so far and the current section. */
  datatype State = State(data: Dict, current: Option<string>)

  /** The current section, if any, has an entry to append to. */
  predicate Open(st: State) {
    st.current.Some? ==> st.current.value in st.data.entries
  }

  const Start: State := State(Dict([], map[]), None)

  /** The int-or-float conversion of a token: a token containing `.` is read
      with `float()`, any other with `int()`; None when the conversion
      raises ValueError. */
  function ParseNumber(token: string): (r: Option<Value>)
    ensures '.' in token ==> (r.Some? <==> ParseFloat(token).Some?)
    ensures '.' !in token ==> (r.Some? <==> ParseInt(token).Some?)
    ensures r.Some? && '.' in token ==> r.value.Float? && r.value.x == ParseFloat(token).value
    ensures r.Some? && '.' !in token ==> r.value.Int? && r.value.i == ParseInt(token).value
  {
    if '.' in token then
      match ParseFloat(token)
      case None => None
      case Some(x) => Some(Float(x))
    else
      match ParseInt(token)
      case None => None
      case Some(i) => Some(Int(i))
  }

  /** Opening a section: a new name is appended to the keys with no values;
      an existing one keeps its place and loses its values. */
  function Reset(d: Dict, name: string): (r: Dict)
    ensures r.entries == d.entries[name := []]
    ensures name in d.keys ==> r.keys == d.keys
    ensures name !in d.keys ==> r.keys == d.keys + [name]
    ensures WellFormed(d) ==> WellFormed(r)
  {
    Dict(if name in d.keys then d.keys else d.keys + [name], d.entries[name := []])
  }

  /** Adding a value at the end of a section already present. */
  function Append(d: Dict, name: string, v: Value): (r: Dict)
    requires name in d.entries
    ensures r.keys == d.keys
    ensures r.entries == d.entries[name := d.entries[name] + [v]]
    ensures WellFormed(d) ==> WellFormed(r)
  {
    Dict(d.keys, d.entries[name := d.entries[name] + [v]])
  }

  /** One iteration of the loop over the file's lines. */
  function LineStep(st: State, line: string): (r: State)
    requires Open(st)
    ensures Open(r)
  {
    var s := Strip(line);
    if |s| == 0 then st
    else if s[0] == '#' then
      var name := Upper(Strip(s[1..]));
      State(Reset(st.data, name), Some(name))
    else if st.current.None? then st
    else
      match ParseNumber(FirstToken(s))
      case None => st
      case Some(v) => State(Append(st.data, st.current.value, v), st.current)
  }

  /** The loop over the lines from a given state. */
  function Feed(st: State, lines: seq<string>): (r: State)
    requires Open(st)
    ensures Open(r)
    decreases |lines|
  {
    if |lines| == 0 then st else Feed(LineStep(st, lines[0]), lines[1..])
  }

  /** `parse_input` on a file with the given lines. */
  function Parse(lines: seq<string>): (r: Dict)
  {
    Feed(Start, lines).data
  }

  // ---------------------------------------------------------------------
  // Classifying lines

  /** What a line is to the loop once stripped: blank, a header naming a
      section, or an entry whose first token converts to a value or not. */
  datatype Line = Blank | Header(name: string) | Entry(value: Option<Value>)

  function Classify(line: string): (l: Line) {
    var s := Strip(line);
    if |s| == 0 then Blank
    else if s[0] == '#' then Header(Upper(Strip(s[1..])))
    else Entry(ParseNumber(FirstToken(s)))
  }

  function ClassifyAll(lines: seq<string>): (ls: seq<Line>)
    ensures |ls| == |lines| && forall k :: 0 <= k < |lines| ==> ls[k] == Classify(lines[k])
  {
    seq(|lines|, k requires 0 <= k < |lines| => Classify(lines[k]))
  }

  /** Classification line by line determines the classified file. */
  lemma ClassifyAllIs(lines: seq<string>, ls: seq<Line>)
    requires |ls| == |lines| && forall k :: 0 <= k < |lines| ==> Classify(lines[k]) == ls[k]
    ensures ClassifyAll(lines) == ls
  {
  }

  /** The loop body on a classified line: a header resets its section and
      makes it current; an entry that converts is appended to the current
      section, if there is one; everything else changes nothing. */
  function Apply(st: State, l: Line): (r: State)
    requires Open(st)
    ensures Open(r)
  {
    match l
    case Blank => st
    case Header(n) => State(Reset(st.data, n), Some(n))
    case Entry(v) =>
      if st.current.None? || v.None? then st
      else State(Append(st.data, st.current.value, v.value), st.current)
  }

  lemma LineStepClassified(st: State, line: string)
    requires Open(st)
    ensures LineStep(st, line) == Apply(st, Classify(line))
  {
    if |Strip(line)| == 0 {
      BlankStep(st, line);
    } else if Strip(line)[0] == '#' {
      HeaderStep(st, line);
    } else {
      EntryStep(st, line);
    }
  }

  lemma BlankStep(st: State, line: string)
    requires Open(st) && |Strip(line)| == 0
    ensures LineStep(st, line) == st && Classify(line) == Blank
  {
  }

  lemma HeaderStep(st: State, line: string)
    requires Open(st) && |Strip(line)| > 0 && Strip(line)[0] == '#'
    ensures Classify(line) == Header(Upper(Strip(Strip(line)[1..])))
    ensures LineStep(st, line) == Apply(st, Header(Upper(Strip(Strip(line)[1..]))))
  {
  }

  lemma EntryStep(st: State, line: string)
    requires Open(st) && |Strip(line)| > 0 && Strip(line)[0] != '#'
    ensures Classify(line) == Entry(ParseNumber(FirstToken(Strip(line))))
    ensures LineStep(st, line) == Apply(st, Entry(ParseNumber(FirstToken(Strip(line)))))
  {
    var s := Strip(line);
    var v := ParseNumber(FirstToken(s));
    assert Classify(line) == Entry(v);
    if st.current.None? || v.None? {
      assert LineStep(st, line) == st;
    } else {
      assert LineStep(st, line) == State(Append(st.data, st.current.value, v.value), st.current);
    }
  }

  /** The loop over classified lines. */
  function Run(st: State, ls: seq<Line>): (r: State)
    requires Open(st)
    ensures Open(r)
    decreases |ls|
  {
    if |ls| == 0 then st else Run(Apply(st, ls[0]), ls[1..])
  }

  lemma {:induction false} FeedClassified(st: State, lines: seq<string>)
    requires Open(st)
    ensures Feed(st, lines) == Run(st, ClassifyAll(lines))
    decreases |lines|
  {
    if |lines| > 0 {
      LineStepClassified(st, lines[0]);
      FeedClassified(LineStep(st, lines[0]), lines[1..]);
      assert ClassifyAll(lines)[1..] == ClassifyAll(lines[1..]);
    }
  }

  // ---------------------------------------------------------------------
  // The loop as a fold

  lemma {:induction false} RunAppend(st: State, a: seq<Line>, b: seq<Line>)
    requires Open(st)
    ensures Run(st, a + b) == Run(Run(st, a), b)
    decreases |a|
  {
    if |a| > 0 {
      assert (a + b)[0] == a[0] && (a + b)[1..] == a[1..] + b;
      RunAppend(Apply(st, a[0]), a[1..], b);
    } else {
      assert a + b == b;
    }
  }

  /** The last line is processed last. */
  lemma RunSnoc(st: State, ls: seq<Line>, l: Line)
    requires Open(st)
    ensures Run(st, ls + [l]) == Apply(Run(st, ls), l)
  {
    RunAppend(st, ls, [l]);
    assert [l][1..] == [];
  }

  /** The dictionary `parse_input` returns, by way of the classified lines. */
  lemma ParseClassified(lines: seq<string>)
    ensures Parse(lines) == Run(Start, ClassifyAll(lines)).data
  {
    FeedClassified(Start, lines);
  }

  lemma ClassifyAllAppend(a: seq<string>, b: seq<string>)
    ensures ClassifyAll(a + b) == ClassifyAll(a) + ClassifyAll(b)
  {
  }

  lemma RunBlank(ca: seq<Line>, cb: seq<Line>)
    ensures Run(Start, ca + [Blank] + cb) == Run(Start, ca + cb)
  {
    RunAppend(Start, ca + [Blank], cb);
    RunSnoc(Start, ca, Blank);
    RunAppend(Start, ca, cb);
  }

  /** A blank line anywhere in the file changes nothing. */
  lemma BlankLineIgnored(a: seq<string>, line: string, b: seq<string>)
    requires Strip(line) == []
    ensures Parse(a + [line] + b) == Parse(a + b)
  {
    var ca := ClassifyAll(a);
    var cb := ClassifyAll(b);
    assert Parse(a + [line] + b) == Run(Start, ca + [Blank] + cb).data by {
      assert ClassifyAll([line]) == [Blank];
      ClassifyAllAppend(a + [line], b);
      ClassifyAllAppend(a, [line]);
      ParseClassified(a + [line] + b);
    }
    assert Parse(a + b) == Run(Start, ca + cb).data by {
      ClassifyAllAppend(a, b);
      ParseClassified(a + b);
    }
    RunBlank(ca, cb);
  }

  predicate NoHeader(ls: seq<Line>) {
    forall k :: 0 <= k < |ls| ==> !ls[k].Header?
  }

  lemma {:induction false} RunFromStart(ls: seq<Line>)
    requires NoHeader(ls)
    ensures Run(Start, ls) == Start
    decreases |ls|
  {
    if |ls| > 0 {
      RunFromStart(ls[1..]);
    }
  }

  /** Lines before the first header change nothing: the result is that of
      the file from its first header on. */
  lemma PreambleIgnored(a: seq<string>, b: seq<string>)
    requires NoHeader(ClassifyAll(a))
    ensures Parse(a + b) == Parse(b)
  {
    ClassifyAllAppend(a, b);
    ParseClassified(a + b);
    ParseClassified(b);
    RunAppend(Start, ClassifyAll(a), ClassifyAll(b));
    RunFromStart(ClassifyAll(a));
  }

  /** Text after the first whitespace of an entry line is irrelevant: the
      line reads as its first token. */
  lemma TrailingTextIgnored(t: string, c: char, rest: string)
    requires |t| > 0 && NoSpace(t) && t[0] != '#' && IsSpace(c)
    ensures Classify(t + [c] + rest) == Entry(ParseNumber(t))
  {
    StripKeepsToken(t, c, rest);
  }

  // ---------------------------------------------------------------------
  // What the dictionary holds

  /** The header names, in order, repeats included. */
  function Headers(ls: seq<Line>): (hs: seq<string>)
    ensures |hs| <= |ls|
  {
    if |ls| == 0 then []
    else
      var rest := Headers(ls[..|ls| - 1]);
      match ls[|ls| - 1]
      case Header(n) => rest + [n]
      case _ => rest
  }

  /** The section names, in the order of their first headers: the key order
      of the dictionary. */
  lemma {:induction false} RunKeys(ls: seq<Line>)
    ensures Run(Start, ls).data.keys == Dedup(Headers(ls))
  {
    if |ls| > 0 {
      var pre := ls[..|ls| - 1];
      var l := ls[|ls| - 1];
      assert ls == pre + [l];
      RunKeys(pre);
      RunSnoc(Start, pre, l);
      match l
      case Header(n) =>
        var hs := Headers(pre) + [n];
        assert hs[..|hs| - 1] == Headers(pre);
      case _ =>
    }
  }

  /** Every name the loop has seen has an entry, and no other name does. */
  lemma {:induction false} RunDomain(ls: seq<Line>)
    ensures forall n :: n in Run(Start, ls).data.entries <==> n in Headers(ls)
  {
    if |ls| > 0 {
      var pre := ls[..|ls| - 1];
      var l := ls[|ls| - 1];
      assert ls == pre + [l];
      RunDomain(pre);
      RunSnoc(Start, pre, l);
    }
  }

  /** The keys of the result are the header names in the order they first
      appear, each once. */
  lemma ParseKeys(lines: seq<string>)
    ensures Parse(lines).keys == Dedup(Headers(ClassifyAll(lines)))
    ensures forall n :: n in Parse(lines).entries <==> n in Headers(ClassifyAll(lines))
  {
    ParseClassified(lines);
    RunKeys(ClassifyAll(lines));
    RunDomain(ClassifyAll(lines));
  }

  /** The result is a well-formed dictionary: distinct keys, each with an
      entry, and no entry without a key. */
  lemma ParseWellFormed(lines: seq<string>)
    ensures WellFormed(Parse(lines))
  {
    ParseKeys(lines);
  }

  /** Position of the last header, or -1. */
  function LastHeader(ls: seq<Line>): (p: int)
    ensures -1 <= p < |ls|
    ensures p >= 0 ==> ls[p].Header?
    ensures forall q :: p < q < |ls| ==> !ls[q].Header?
  {
    if |ls| == 0 then -1
    else if ls[|ls| - 1].Header? then |ls| - 1
    else LastHeader(ls[..|ls| - 1])
  }

  /** Position of the last header naming n, or -1. */
  function LastHeaderNamed(ls: seq<Line>, n: string): (p: int)
    ensures -1 <= p < |ls|
    ensures p >= 0 ==> ls[p] == Header(n)
    ensures forall q :: p < q < |ls| ==> ls[q] != Header(n)
  {
    if |ls| == 0 then -1
    else if ls[|ls| - 1] == Header(n) then |ls| - 1
    else LastHeaderNamed(ls[..|ls| - 1], n)
  }

  /** A name is among the headers exactly when some header names it. */
  lemma {:induction false} HeadersNamed(ls: seq<Line>, n: string)
    ensures n in Headers(ls) <==> LastHeaderNamed(ls, n) >= 0
  {
    if |ls| > 0 {
      HeadersNamed(ls[..|ls| - 1], n);
    }
  }

  /** The current section after the loop is the one the last header named. */
  lemma {:induction false} RunCurrent(ls: seq<Line>)
    ensures Run(Start, ls).current == if LastHeader(ls) < 0 then None else Some(ls[LastHeader(ls)].name)
  {
    if |ls| > 0 {
      var pre := ls[..|ls| - 1];
      assert ls == pre + [ls[|ls| - 1]];
      RunCurrent(pre);
      RunSnoc(Start, pre, ls[|ls| - 1]);
    }
  }

  /** The values the section open at the start of these lines collects:
      those of the converting entries before the next header. */
  function ValuesUntilHeader(ls: seq<Line>): (vs: seq<Value>) {
    if |ls| == 0 then []
    else
      match ls[0]
      case Header(_) => []
      case Entry(Some(v)) => [v] + ValuesUntilHeader(ls[1..])
      case _ => ValuesUntilHeader(ls[1..])
  }

  /** Extending a run of lines at the end adds that line's value, unless a
      header has already closed the run. */
  lemma {:induction false} ValuesUntilHeaderSnoc(ls: seq<Line>, l: Line)
    ensures NoHeader(ls) && l.Entry? && l.value.Some? ==>
      ValuesUntilHeader(ls + [l]) == ValuesUntilHeader(ls) + [l.value.value]
    ensures !(NoHeader(ls) && l.Entry? && l.value.Some?) ==>
      ValuesUntilHeader(ls + [l]) == ValuesUntilHeader(ls)
    decreases |ls|
  {
    var e := ls + [l];
    if |ls| == 0 {
      assert e == [l] && e[1..] == [];
    } else {
      assert e[0] == ls[0] && e[1..] == ls[1..] + [l];
      ValuesUntilHeaderSnoc(ls[1..], l);
      assert NoHeader(ls) <==> !ls[0].Header? && NoHeader(ls[1..]) by {
        assert forall k :: 0 <= k < |ls[1..]| ==> ls[1..][k] == ls[k + 1];
      }
    }
  }

  /** Each section holds exactly the values of the converting entries
      between its last header and the next header (or the end of the
      file): a repeated header discards what came before it. */
  lemma {:induction false} RunValues(ls: seq<Line>, n: string)
    requires n in Run(Start, ls).data.entries
    ensures 0 <= LastHeaderNamed(ls, n)
    ensures Run(Start, ls).data.entries[n] == ValuesUntilHeader(ls[LastHeaderNamed(ls, n) + 1..])
  {
    assert LastHeaderNamed(ls, n) >= 0 by {
      RunDomain(ls);
      HeadersNamed(ls, n);
    }
    var pre := ls[..|ls| - 1];
    var l := ls[|ls| - 1];
    var st := Run(Start, pre);
    assert Run(Start, ls) == Apply(st, l) by {
      assert ls == pre + [l];
      RunSnoc(Start, pre, l);
    }
    if l == Header(n) {
      assert LastHeaderNamed(ls, n) == |ls| - 1;
      assert ls[|ls|..] == [];
    } else {
      var p := LastHeaderNamed(pre, n);
      assert LastHeaderNamed(ls, n) == p by {
        assert ls[..|ls| - 1] == pre;
      }
      assert ls[p + 1..] == pre[p + 1..] + [l];
      assert n in st.data.entries by {
        ApplyDomain(st, l, n);
      }
      RunValues(pre, n);
      RunValuesStep(pre, l, n);
    }
  }

  /** A line other than a header naming n neither adds n as a section nor
      removes it. */
  lemma ApplyDomain(st: State, l: Line, n: string)
    requires Open(st) && l != Header(n)
    ensures n in Apply(st, l).data.entries <==> n in st.data.entries
  {
  }

  /** The inductive step of RunValues for a line other than a header
      naming n. */
  lemma RunValuesStep(pre: seq<Line>, l: Line, n: string)
    requires l != Header(n)
    requires n in Run(Start, pre).data.entries && LastHeaderNamed(pre, n) >= 0
    requires Run(Start, pre).data.entries[n] == ValuesUntilHeader(pre[LastHeaderNamed(pre, n) + 1..])
    ensures n in Apply(Run(Start, pre), l).data.entries
    ensures Apply(Run(Start, pre), l).data.entries[n] == ValuesUntilHeader(pre[LastHeaderNamed(pre, n) + 1..] + [l])
  {
    var st := Run(Start, pre);
    var tail := pre[LastHeaderNamed(pre, n) + 1..];
    var before := ValuesUntilHeader(tail);
    if l.Entry? && l.value.Some? && st.current == Some(n) {
      assert NoHeader(tail) by { CurrentIsOpen(pre, n); }
      ValuesUntilHeaderSnoc(tail, l);
    } else {
      assert ValuesUntilHeader(tail + [l]) == before by {
        if l.Entry? && l.value.Some? {
          CurrentIsOpen(pre, n);
        }
        ValuesUntilHeaderSnoc(tail, l);
      }
    }
  }

  /** A section is current exactly when no header has come after its last
      header. */
  lemma CurrentIsOpen(ls: seq<Line>, n: string)
    requires LastHeaderNamed(ls, n) >= 0
    ensures Run(Start, ls).current == Some(n) <==> NoHeader(ls[LastHeaderNamed(ls, n) + 1..])
  {
    RunCurrent(ls);
    var p := LastHeaderNamed(ls, n);
    var last := LastHeader(ls);
    var tail := ls[p + 1..];
    assert p <= last;
    if Run(Start, ls).current == Some(n) {
      assert last == p;
      forall k | 0 <= k < |tail| ensures !tail[k].Header? {
        assert tail[k] == ls[p + 1 + k];
      }
    }
  }

  /** `parse_input`'s result, section by section: each key's list holds the
      values of the converting entries after the last header of that name,
      up to the next header. */
  lemma ParseValues(lines: seq<string>, n: string)
    requires n in Parse(lines).entries
    ensures 0 <= LastHeaderNamed(ClassifyAll(lines), n)
    ensures Parse(lines).entries[n] ==
      ValuesUntilHeader(ClassifyAll(lines)[LastHeaderNamed(ClassifyAll(lines), n) + 1..])
  {
    ParseClassified(lines);
    RunValues(ClassifyAll(lines), n);
  }
}

module ParserExamples {
  import opened Results
  import opened Text
  import opened Parser

  /** A header line `#NAME` with a trimmed, upper-case name opens NAME. */
  lemma HeaderLine(name: string)
    requires Trimmed(name) && forall k :: 0 <= k < |name| ==> !('a' <= name[k] <= 'z')
    ensures Classify(['#'] + name) == Header(name)
  {
    var line := ['#'] + name;
    assert line[1..] == name;
    assert Trimmed(line) by {
      assert line[0] == '#' && !IsSpace('#');
      assert |name| > 0 ==> line[|line| - 1] == name[|name| - 1];
    }
    assert Strip(line) == line by {
      StripPadded([], line, []);
      assert [] + line + [] == line;
    }
    assert Strip(line[1..]) == name by {
      StripPadded([], name, []);
      assert [] + name + [] == name;
    }
    assert Upper(name) == name by {
      UpperOfUpper(name);
    }
  }

  /** A line made of one token reads as that token. */
  lemma TokenLine(t: string)
    requires |t| > 0 && NoSpace(t) && t[0] != '#'
    ensures Classify(t) == Entry(ParseNumber(t))
  {
    assert Strip(t) == t by {
      StripPadded([], t, []);
      assert [] + t + [] == t;
    }
    FirstTokenOfJoined(t, []);
    assert t + [] == t;
  }

  /** An integer's text reads back as that integer. */
  lemma ParseNumberInt(i: int)
    ensures ParseNumber(ShowInt(i)) == Some(Int(i))
  {
    ParseShowInt(i);
  }

  /** A decimal literal `w.f` reads as a float. */
  lemma ParseNumberDecimal(w: string, f: string)
    requires AllDigits(w) && AllDigits(f) && |w| + |f| > 0
    ensures AllDigits(w + f)
    ensures ParseNumber(w + "." + f) == Some(Float(Shift(DigitsValue(w + f) as real, -|f|)))
  {
    ParseFloatDecimal(w, f);
    assert (w + "." + f)[|w|] == '.';
  }

  /** A token that is not a number is skipped. */
  lemma ParseNumberRejects()
    ensures ParseNumber("abc") == None
    ensures ParseNumber("1.2.3") == None
  {
    assert !IsDigit("abc"[0]);
    assert "1.2.3"[1] == '.';
    assert Lacks("1.2.3", 'e') && Lacks("1.2.3", 'E');
    UnsignedFloatPlain("1.2.3");
    assert Find("1.2.3", '.') == 1;
    assert "1.2.3"[2..] == "2.3";
    assert !IsDigit("2.3"[1]);
  }

  lemma TimeHeader()
    ensures Classify("#TIME") == Header("TIME")
  {
    assert "#TIME" == ['#'] + "TIME";
    assert Trimmed("TIME");
    HeaderLine("TIME");
  }

  lemma BoundaryHeader()
    ensures Classify("#TOPBOUNDARY") == Header("TOPBOUNDARY")
  {
    assert "#TOPBOUNDARY" == ['#'] + "TOPBOUNDARY";
    assert Trimmed("TOPBOUNDARY");
    HeaderLine("TOPBOUNDARY");
  }

  lemma SevenLine()
    ensures Classify("7") == Entry(Some(Int(7)))
  {
    assert ShowInt(7) == "7";
    TokenLine("7");
    ParseNumberInt(7);
  }

  lemma HundredLine()
    ensures Classify("100") == Entry(Some(Int(100)))
  {
    assert ShowInt(100) == "100" by {
      assert ShowNat(10) == "10";
    }
    TokenLine("100");
    ParseNumberInt(100);
  }

  lemma FloatToken()
    ensures ParseNumber("12.0") == Some(Float(12.0))
  {
    ParseFloatWhole();
    assert "12.0"[2] == '.';
  }

  lemma AnnotatedFloatLine()
    ensures Classify("12.0 hours after midnight") == Entry(Some(Float(12.0)))
  {
    assert "12.0" + [' '] + "hours after midnight" == "12.0 hours after midnight";
    assert NoSpace("12.0") && IsSpace(' ');
    TrailingTextIgnored("12.0", ' ', "hours after midnight");
    FloatToken();
  }

  /** The first section of the sample: its header, then two values. */
  lemma TimeSection()
    ensures Run(Start, [Header("TIME"), Entry(Some(Int(7))), Entry(Some(Float(12.0)))])
         == State(Dict(["TIME"], map["TIME" := [Int(7), Float(12.0)]]), Some("TIME"))
  {
    var ls := [Header("TIME"), Entry(Some(Int(7))), Entry(Some(Float(12.0)))];
    var s1 := Apply(Start, ls[0]);
    assert s1.data == Dict(["TIME"], map["TIME" := []]) && s1.current == Some("TIME");
    var s2 := Apply(s1, ls[1]);
    assert s1.data.entries["TIME"] + [Int(7)] == [Int(7)];
    assert s2.data == Dict(["TIME"], map["TIME" := [Int(7)]]) && s2.current == Some("TIME");
    var s3 := Apply(s2, ls[2]);
    assert s2.data.entries["TIME"] + [Float(12.0)] == [Int(7), Float(12.0)];
    assert s3.data == Dict(["TIME"], map["TIME" := [Int(7), Float(12.0)]]);
    assert ls[1..][1..][1..] == [];
  }

  /** The second section of the sample, after the first. */
  lemma BoundarySection()
    ensures Open(State(Dict(["TIME"], map["TIME" := [Int(7), Float(12.0)]]), Some("TIME")))
    ensures Run(State(Dict(["TIME"], map["TIME" := [Int(7), Float(12.0)]]), Some("TIME")), [Header("TOPBOUNDARY"), Entry(Some(Int(100)))])
         == State(Dict(["TIME", "TOPBOUNDARY"], map["TIME" := [Int(7), Float(12.0)], "TOPBOUNDARY" := [Int(100)]]), Some("TOPBOUNDARY"))
  {
    var s3 := State(Dict(["TIME"], map["TIME" := [Int(7), Float(12.0)]]), Some("TIME"));
    assert Open(s3);
    var ls := [Header("TOPBOUNDARY"), Entry(Some(Int(100)))];
    var s4 := Apply(s3, ls[0]);
    assert "TOPBOUNDARY" !in s3.data.keys;
    assert s4.data == Dict(["TIME", "TOPBOUNDARY"], map["TIME" := [Int(7), Float(12.0)], "TOPBOUNDARY" := []]);
    assert s4.current == Some("TOPBOUNDARY");
    var s5 := Apply(s4, ls[1]);
    assert s4.data.entries["TOPBOUNDARY"] + [Int(100)] == [Int(100)];
    assert s5.data == Dict(["TIME", "TOPBOUNDARY"], map["TIME" := [Int(7), Float(12.0)], "TOPBOUNDARY" := [Int(100)]]);
    assert ls[1..][1..] == [];
  }

  /** The loop over the classified sample: two sections, filled in order. */
  lemma SampleRun()
    ensures var st := Run(Start, [Header("TIME"), Entry(Some(Int(7))), Entry(Some(Float(12.0))), Header("TOPBOUNDARY"), Entry(Some(Int(100)))]);
      && st.data.keys == ["TIME", "TOPBOUNDARY"]
      && st.data.entries == map["TIME" := [Int(7), Float(12.0)], "TOPBOUNDARY" := [Int(100)]]
  {
    var a := [Header("TIME"), Entry(Some(Int(7))), Entry(Some(Float(12.0)))];
    var b := [Header("TOPBOUNDARY"), Entry(Some(Int(100)))];
    assert a + b == [Header("TIME"), Entry(Some(Int(7))), Entry(Some(Float(12.0))), Header("TOPBOUNDARY"), Entry(Some(Int(100)))];
    RunAppend(Start, a, b);
    TimeSection();
    BoundarySection();
  }

  lemma SampleClassified()
    ensures ClassifyAll(["#TIME", "7", "12.0 hours after midnight", "#TOPBOUNDARY", "100"])
         == [Header("TIME"), Entry(Some(Int(7))), Entry(Some(Float(12.0))), Header("TOPBOUNDARY"), Entry(Some(Int(100)))]
  {
    var lines := ["#TIME", "7", "12.0 hours after midnight", "#TOPBOUNDARY", "100"];
    var ls := [Header("TIME"), Entry(Some(Int(7))), Entry(Some(Float(12.0))), Header("TOPBOUNDARY"), Entry(Some(Int(100)))];
    forall k | 0 <= k < 5
      ensures Classify(lines[k]) == ls[k]
    {
      var line, l := lines[k], ls[k];
      if k == 0 { assert line == "#TIME" && l == Header("TIME"); TimeHeader(); }
      else if k == 1 { assert line == "7" && l == Entry(Some(Int(7))); SevenLine(); }
      else if k == 2 { assert line == "12.0 hours after midnight" && l == Entry(Some(Float(12.0))); AnnotatedFloatLine(); }
      else if k == 3 { assert line == "#TOPBOUNDARY" && l == Header("TOPBOUNDARY"); BoundaryHeader(); }
      else { assert line == "100" && l == Entry(Some(Int(100))); HundredLine(); }
    }
    ClassifyAllIs(lines, ls);
  }

  /** The sections a file of this shape yields: the first token of each
      data line is read, `7` as an int and `12.0` as a float, and the text
      after it is ignored. */
  lemma SampleFile()
    ensures var d := Parse(["#TIME", "7", "12.0 hours after midnight", "#TOPBOUNDARY", "100"]);
      && d.keys == ["TIME", "TOPBOUNDARY"]
      && d.entries == map["TIME" := [Int(7), Float(12.0)], "TOPBOUNDARY" := [Int(100)]]
  {
    var lines := ["#TIME", "7", "12.0 hours after midnight", "#TOPBOUNDARY", "100"];
    var ls := [Header("TIME"), Entry(Some(Int(7))), Entry(Some(Float(12.0))), Header("TOPBOUNDARY"), Entry(Some(Int(100)))];
    SampleClassified();
    ParseClassified(lines);
    SampleRun();
  }
}

=== FILE: raster.dfy ===
/** A road as a straight line source and its rasterisation onto horizontal
    grid cells. */
module Raster {
  import opened Results
  import opened Numeric
  import opened Unique
  import opened Grid

  /** A horizontal position: north-south coordinate, west-east coordinate. */
  datatype Point = Point(ns: real, we: real)

  /** A road segment with its emission rate callable; `rate(t)` is None when
      the callable raises at time t. */
  datatype RoadSource = RoadSource(start: Point, end: Point, rate: real -> Option<real>, name: string)

  function Abs(x: real): (a: real) {
    if x < 0.0 then -x else x
  }

  function Max(a: real, b: real): (m: real) {
    if a < b then b else a
  }

  /** `steps`: one more than the truncated number of cell widths the segment
      spans along its longer axis. */
  function StepCount(road: RoadSource, dx: real, dy: real): (n: nat)
    requires dx != 0.0 && dy != 0.0
    ensures n >= 1
    ensures (n - 1) as real <= Max(Abs((road.end.ns - road.start.ns) / dx), Abs((road.end.we - road.start.we) / dy)) < n as real
  {
    var m := Max(Abs((road.end.ns - road.start.ns) / dx), Abs((road.end.we - road.start.we) / dy));
    Trunc(m) + 1
  }

  /** The cell holding a point: each coordinate divided by the cell size and
      truncated toward zero, so points just west of 0 still land in cell 0. */
  function CellOf(p: Point, dx: real, dy: real): (c: Cell)
    requires dx != 0.0 && dy != 0.0
  {
    Cell(Trunc(p.ns / dx), Trunc(p.we / dy))
  }

  /** The point at parameter t = s / steps along the segment. */
  function SamplePoint(road: RoadSource, steps: nat, s: nat): (p: Point)
    requires steps > 0
  {
    var t := s as real / steps as real;
    Point(road.start.ns + t * (road.end.ns - road.start.ns),
          road.start.we + t * (road.end.we - road.start.we))
  }

  function SampleCell(road: RoadSource, dx: real, dy: real, s: nat): (c: Cell)
    requires dx != 0.0 && dy != 0.0
  {
    CellOf(SamplePoint(road, StepCount(road, dx, dy), s), dx, dy)
  }

  /** The cells of the steps + 1 samples, in sampling order, duplicates kept. */
  function Samples(road: RoadSource, dx: real, dy: real): (r: seq<Cell>)
    requires dx != 0.0 && dy != 0.0
    ensures |r| == StepCount(road, dx, dy) + 1
    ensures forall s :: 0 <= s < |r| ==> r[s] == SampleCell(road, dx, dy, s)
    ensures r[0] == CellOf(road.start, dx, dy) && r[|r| - 1] == CellOf(road.end, dx, dy)
  {
    SampleEnds(road, StepCount(road, dx, dy));
    seq(StepCount(road, dx, dy) + 1, s requires s >= 0 => SampleCell(road, dx, dy, s))
  }

  /** The first and the last sample are the end points themselves. */
  lemma SampleEnds(road: RoadSource, steps: nat)
    requires steps > 0
    ensures SamplePoint(road, steps, 0) == road.start
    ensures SamplePoint(road, steps, steps) == road.end
  {
    assert steps as real / steps as real == 1.0;
  }

  /** `RoadSource.cells`: the sampled cells, each kept once, in the order in
      which the samples first reached it. */
  function Cells(road: RoadSource, dx: real, dy: real): (r: seq<Cell>)
    requires dx != 0.0 && dy != 0.0
    ensures Distinct(r)
    ensures 1 <= |r| <= StepCount(road, dx, dy) + 1
    ensures r[0] == CellOf(road.start, dx, dy)
    ensures CellOf(road.end, dx, dy) in r
    ensures forall c :: c in r <==> c in Samples(road, dx, dy)
    ensures forall p, q :: 0 <= p < q < |r| ==>
      FirstIndex(Samples(road, dx, dy), r[p]) < FirstIndex(Samples(road, dx, dy), r[q])
  {
    var xs := Samples(road, dx, dy);
    var n := StepCount(road, dx, dy);
    SampleEnds(road, n);
    DedupHead(xs);
    DedupFirstOccurrenceOrder(xs);
    assert xs[n] == CellOf(road.end, dx, dy);
    Dedup(xs)
  }

  /** The cells of a road, or the ZeroDivisionError raised when a cell size
      is 0. */
  function TryCells(road: RoadSource, dx: real, dy: real): (r: Result<seq<Cell>>)
    ensures r.Err? <==> dx == 0.0 || dy == 0.0
    ensures r.Err? ==> r.error == ZeroDivision
    ensures r.Ok? ==> r.value == Cells(road, dx, dy)
  {
    if dx == 0.0 || dy == 0.0 then Err(ZeroDivision) else Ok(Cells(road, dx, dy))
  }

  lemma SampleOfPointRoad(road: RoadSource, steps: nat, s: nat)
    requires steps > 0 && road.start == road.end
    ensures SamplePoint(road, steps, s) == road.start
  {
    var t := s as real / steps as real;
    assert road.end.ns - road.start.ns == 0.0 && road.end.we - road.start.we == 0.0;
    assert t * 0.0 == 0.0;
  }

  /** A segment whose end points coincide covers exactly one cell. */
  lemma ZeroLengthSingleCell(road: RoadSource, dx: real, dy: real)
    requires dx != 0.0 && dy != 0.0
    requires road.start == road.end
    ensures Cells(road, dx, dy) == [CellOf(road.start, dx, dy)]
  {
    var xs := Samples(road, dx, dy);
    var c := CellOf(road.start, dx, dy);
    forall s | 0 <= s < |xs|
      ensures xs[s] == c
    {
      SampleOfPointRoad(road, StepCount(road, dx, dy), s);
    }
    DedupConstant(xs, c);
  }

  /** The I-15 road of the example run, from (0, 10000) to (16900, 10000)
      with 1000-unit cells, covers the 17 cells (0, 10) .. (16, 10) in
      north-to-south order. */
  lemma InterstateExample(rate: real -> Option<real>)
    ensures Cells(RoadSource(Point(0.0, 10000.0), Point(16900.0, 10000.0), rate, ""), 1000.0, 1000.0)
      == seq(17, i => Cell(i, 10))
  {
    var road := RoadSource(Point(0.0, 10000.0), Point(16900.0, 10000.0), rate, "");
    assert StepCount(road, 1000.0, 1000.0) == 17;
    var xs := Samples(road, 1000.0, 1000.0);
    var d := seq(17, i => Cell(i, 10));
    forall s | 0 <= s < |xs|
      ensures xs[s] == ([d[0]] + d)[s]
    {
      var p := SamplePoint(road, 17, s);
      assert p.we == 10000.0;
      assert p.ns == s as real * 16900.0 / 17.0;
      if s > 0 {
        assert (s - 1) as real <= p.ns / 1000.0 < s as real;
      }
    }
    assert xs == [d[0]] + d;
    DedupRepeatedHead(d);
  }
}

=== FILE: results.dfy ===
/** Failure-carrying wrappers shared by the model: an optional value, and a
    result that is either a value or one of the exceptions the modelled code
    can raise. */
module Results {

  datatype Option<+T> = None | Some(value: T)

  /** The exceptions the modelled code can raise. */
  datatype Error =
    | ZeroDivision              // a cell size of 0 divides a coordinate
    | IndexOutOfRange           // a write into an empty vertical column
    | SourceRaised(source: nat) // the rate callable of that source raised

  datatype Result<+T> = Ok(value: T) | Err(error: Error) {

    predicate IsFailure() {
      Err?
    }

    function PropagateFailure<U>(): Result<U>
      requires Err?
    {
      Err(error)
    }

    function Extract(): T
      requires Ok?
    {
      value
    }
  }
}

=== FILE: schedule.dfy ===
/** The example traffic profile the simulation script attaches to its roads:
    emission is high in the two rush hours, low at night and nominal
    otherwise, repeating every 24 hours. */
module Schedule {
  import opened Results
  import opened Numeric

  const RushRate: real := 5.0
  const NightRate: real := 0.5
  const BaseRate: real := 1.0

  /** The hour of the day a time (in hours) falls in, taken floored modulo 24. */
  function HourOfDay(t: real): (h: real) {
    Mod24(t)
  }

  predicate InRushHour(t: real) {
    var hour := HourOfDay(t);
    (7.0 <= hour < 9.0) || (16.0 <= hour < 18.0)
  }

  predicate AtNight(t: real) {
    var hour := HourOfDay(t);
    0.0 <= hour < 5.0
  }

  /** `rush_hour_rate(t)`: 5 in the hours [7, 9) and [16, 18), 0.5 in
      [0, 5), and 1 in every other hour. */
  function RushHourRate(t: real): (r: real)
    ensures r == RushRate <==> InRushHour(t)
    ensures r == NightRate <==> AtNight(t)
    ensures r == BaseRate <==> !InRushHour(t) && !AtNight(t)
    ensures r > 0.0
  {
    if InRushHour(t) then RushRate
    else if AtNight(t) then NightRate
    else BaseRate
  }

  /** The profile depends only on the hour of the day. */
  lemma RushHourPeriodic(t: real)
    ensures RushHourRate(t + 24.0) == RushHourRate(t)
  {
    Mod24Periodic(t);
  }

  /** Shifting by any whole number of days leaves the profile unchanged. */
  lemma {:induction false} RushHourDays(t: real, days: nat)
    ensures RushHourRate(t + days as real * 24.0) == RushHourRate(t)
    decreases days
  {
    if days > 0 {
      RushHourDays(t, days - 1);
      assert t + days as real * 24.0 == (t + (days - 1) as real * 24.0) + 24.0;
      RushHourPeriodic(t + (days - 1) as real * 24.0);
    }
  }

  /** Rates at sample hours, one of them before time 0: the small hours
      are quiet, the morning and evening rush are busy. */
  lemma RushHourSamples()
    ensures RushHourRate(3.0) == NightRate
    ensures RushHourRate(8.0) == RushRate
    ensures RushHourRate(12.0) == BaseRate
    ensures RushHourRate(17.5) == RushRate
    ensures RushHourRate(-1.0) == BaseRate
  {
    Mod24OfRange(3.0);
    Mod24OfRange(8.0);
    Mod24OfRange(12.0);
    Mod24OfRange(17.5);
    assert Mod24(-1.0) == 23.0 by {
      assert (-1.0 / 24.0).Floor == -1;
    }
  }

  /** The profile as a rate callable: it never raises. */
  function RushHourProfile(): (f: real -> Option<real>)
    ensures forall t :: f(t) == Some(RushHourRate(t))
    ensures forall t :: f(t).Some?
    ensures Daily(f)
  {
    var f := t => Some(RushHourRate(t));
    ProfileDaily(f);
    f
  }

  /** A rate callable whose answer repeats every 24 hours. */
  ghost predicate Daily(f: real -> Option<real>) {
    forall t :: f(t + 24.0) == f(t)
  }

  /** Any callable that reports the profile repeats daily. */
  lemma ProfileDaily(f: real -> Option<real>)
    requires forall t :: f(t) == Some(RushHourRate(t))
    ensures Daily(f)
  {
    forall t
      ensures f(t + 24.0) == f(t)
    {
      RushHourPeriodic(t);
    }
  }
}

=== FILE: text.dfy ===
/** The string operations the input parser relies on: Python's `str.strip`,
    `str.upper` restricted to ASCII, the first whitespace-separated token,
    and the decimal `int()` and `float()` conversions. */
module Text {
  import opened Results

  /** Python's `str.isspace`: ASCII whitespace, the information separators
      0x1C-0x1F, and the Unicode space and line/paragraph separators. */
  predicate IsSpace(c: char) {
    || c == ' '
    || ('\t' <= c <= '\r')
    || ('\U{1C}' <= c <= '\U{1F}')
    || c == '\U{85}' || c == '\U{A0}' || c == '\U{1680}'
    || ('\U{2000}' <= c <= '\U{200A}')
    || c == '\U{2028}' || c == '\U{2029}' || c == '\U{202F}' || c == '\U{205F}' || c == '\U{3000}'
  }

  predicate AllSpace(s: string) {
    forall k :: 0 <= k < |s| ==> IsSpace(s[k])
  }

  /** No character of s is c. */
  predicate Lacks(s: string, c: char) {
    forall k :: 0 <= k < |s| ==> s[k] != c
  }

  predicate NoSpace(s: string) {
    forall k :: 0 <= k < |s| ==> !IsSpace(s[k])
  }

  /** Neither end of s is whitespace. */
  predicate Trimmed(s: string) {
    |s| == 0 || (!IsSpace(s[0]) && !IsSpace(s[|s| - 1]))
  }

  /** `str.lstrip()`: the suffix left after the leading whitespace. */
  function TrimLeft(s: string): (r: string)
    ensures |r| <= |s| && r == s[|s| - |r|..]
    ensures AllSpace(s[..|s| - |r|])
    ensures |r| == 0 || !IsSpace(r[0])
    decreases |s|
  {
    if |s| > 0 && IsSpace(s[0]) then
      var r := TrimLeft(s[1..]);
      assert s[..|s| - |r|] == [s[0]] + s[1..][..|s| - 1 - |r|];
      r
    else s
  }

  /** `str.rstrip()`: the prefix left before the trailing whitespace. */
  function TrimRight(s: string): (r: string)
    ensures |r| <= |s| && r == s[..|r|]
    ensures AllSpace(s[|r|..])
    ensures |r| == 0 || !IsSpace(r[|r| - 1])
    decreases |s|
  {
    if |s| > 0 && IsSpace(s[|s| - 1]) then
      var r := TrimRight(s[..|s| - 1]);
      assert s[|r|..] == s[..|s| - 1][|r|..] + [s[|s| - 1]];
      r
    else s
  }

  /** `str.strip()`: s with its leading and trailing whitespace removed;
      neither end of the result is whitespace. */
  function Strip(s: string): (r: string)
    ensures Trimmed(r) && |r| <= |s|
  {
    TrimRight(TrimLeft(s))
  }

  lemma {:induction false} TrimLeftOfPadded(p: string, x: string)
    requires AllSpace(p) && (|x| == 0 || !IsSpace(x[0]))
    ensures TrimLeft(p + x) == x
    decreases |p|
  {
    if |p| > 0 {
      assert (p + x)[1..] == p[1..] + x;
      TrimLeftOfPadded(p[1..], x);
    } else {
      assert p + x == x;
    }
  }

  lemma {:induction false} TrimRightOfPadded(x: string, q: string)
    requires AllSpace(q) && (|x| == 0 || !IsSpace(x[|x| - 1]))
    ensures TrimRight(x + q) == x
    decreases |q|
  {
    if |q| > 0 {
      assert (x + q)[..|x + q| - 1] == x + q[..|q| - 1];
      TrimRightOfPadded(x, q[..|q| - 1]);
    } else {
      assert x + q == x;
    }
  }

  /** Strip is characterised by its contract: surrounding any trimmed string
      with whitespace and stripping gives that string back. */
  lemma StripPadded(p: string, x: string, q: string)
    requires AllSpace(p) && AllSpace(q) && Trimmed(x)
    ensures Strip(p + x + q) == x
  {
    if |x| == 0 {
      assert p + x + q == p + q;
      TrimLeftOfPadded(p + q, []);
      assert p + q + [] == p + q;
      assert forall k :: 0 <= k < |p + q| ==> IsSpace((p + q)[k]);
      TrimLeftEmpty(p + q);
    } else {
      assert p + x + q == p + (x + q);
      TrimLeftOfPadded(p, x + q);
      TrimRightOfPadded(x, q);
    }
  }

  lemma TrimLeftEmpty(s: string)
    requires AllSpace(s)
    ensures TrimLeft(s) == []
  {
  }

  /** ASCII upper-casing of one character. */
  function UpperChar(c: char): (u: char)
    ensures 'a' <= c <= 'z' ==> u as int == c as int - 32
    ensures !('a' <= c <= 'z') ==> u == c
  {
    if 'a' <= c <= 'z' then (c as int - 32) as char else c
  }

  /** `str.upper()` on the ASCII letters. */
  function Upper(s: string): (r: string)
    ensures |r| == |s|
    ensures forall k :: 0 <= k < |s| ==> r[k] == UpperChar(s[k])
  {
    seq(|s|, k requires 0 <= k < |s| => UpperChar(s[k]))
  }

  /** A name with no lower-case letter is its own upper case. */
  lemma UpperOfUpper(s: string)
    requires forall k :: 0 <= k < |s| ==> !('a' <= s[k] <= 'z')
    ensures Upper(s) == s
  {
  }

  /** The first piece when s is split once at a run of whitespace:
      everything before the first whitespace character (all of s when it has
      none). */
  function FirstToken(s: string): (r: string)
    ensures |r| <= |s| && r == s[..|r|] && NoSpace(r)
    ensures |r| == |s| || IsSpace(s[|r|])
    decreases |s|
  {
    if |s| == 0 || IsSpace(s[0]) then []
    else
      var r := FirstToken(s[1..]);
      assert [s[0]] + r == s[..1 + |r|];
      [s[0]] + r
  }

  /** Text after the first whitespace does not affect the token. */
  lemma {:induction false} FirstTokenOfJoined(t: string, rest: string)
    requires NoSpace(t) && (|rest| == 0 || IsSpace(rest[0]))
    ensures FirstToken(t + rest) == t
    decreases |t|
  {
    if |t| > 0 {
      assert (t + rest)[1..] == t[1..] + rest;
      FirstTokenOfJoined(t[1..], rest);
      assert [t[0]] + t[1..] == t;
    } else {
      assert t + rest == rest;
    }
  }

  /** A line that starts with a token and continues after whitespace
      strips to something that starts with that token and then whitespace,
      so its first token is that token. */
  lemma StripKeepsToken(t: string, c: char, rest: string)
    requires |t| > 0 && NoSpace(t) && IsSpace(c)
    ensures var s := Strip(t + [c] + rest);
      |s| >= |t| && s[0] == t[0] && FirstToken(s) == t
  {
    var line := t + [c] + rest;
    assert TrimLeft(line) == line by {
      assert line[0] == t[0];
    }
    var r := TrimRight(line);
    assert |r| >= |t| by {
      assert line[|t| - 1] == t[|t| - 1];
    }
    assert r == t + r[|t|..];
    assert |r| == |t| || IsSpace(r[|t|]) by {
      if |r| > |t| { assert r[|t|] == c; }
    }
    FirstTokenOfJoined(t, r[|t|..]);
  }

  // ---------------------------------------------------------------------
  // Decimal numbers

  predicate IsDigit(c: char) {
    '0' <= c <= '9'
  }

  predicate AllDigits(s: string) {
    forall k :: 0 <= k < |s| ==> IsDigit(s[k])
  }

  function DigitValue(c: char): (d: nat)
    requires IsDigit(c)
    ensures d < 10
  {
    c as int - '0' as int
  }

  function DigitChar(d: nat): (c: char)
    requires d < 10
    ensures IsDigit(c) && DigitValue(c) == d
  {
    ('0' as int + d) as char
  }

  /** The number a run of decimal digits denotes, most significant first. */
  function DigitsValue(s: string): (n: nat)
    requires AllDigits(s)
  {
    if |s| == 0 then 0
    else DigitsValue(s[..|s| - 1]) * 10 + DigitValue(s[|s| - 1])
  }

  /** The shortest decimal digits of n. */
  function ShowNat(n: nat): (s: string)
    ensures |s| > 0 && AllDigits(s)
  {
    if n < 10 then [DigitChar(n)] else ShowNat(n / 10) + [DigitChar(n % 10)]
  }

  lemma {:induction false} ShowNatValue(n: nat)
    ensures DigitsValue(ShowNat(n)) == n
  {
    var s := ShowNat(n);
    if n >= 10 {
      ShowNatValue(n / 10);
      assert s[..|s| - 1] == ShowNat(n / 10);
    }
  }

  /** The sign prefix `+` or `-` Python accepts before a number. */
  function Unsigned(s: string): (r: string)
    ensures r == s || (|s| > 0 && (s[0] == '+' || s[0] == '-') && r == s[1..])
  {
    if |s| > 0 && (s[0] == '+' || s[0] == '-') then s[1..] else s
  }

  predicate Negative(s: string) {
    |s| > 0 && s[0] == '-'
  }

  /** `int(s)` for a string: an optional sign and one or more decimal
      digits; anything else raises ValueError (None). */
  function ParseInt(s: string): (r: Option<int>)
    ensures r.Some? <==> |Unsigned(s)| > 0 && AllDigits(Unsigned(s))
  {
    var ds := Unsigned(s);
    if |ds| == 0 || !AllDigits(ds) then None
    else if Negative(s) then Some(0 - DigitsValue(ds))
    else Some(DigitsValue(ds))
  }

  /** The decimal text of an integer, with a minus sign when negative. */
  function ShowInt(i: int): (s: string)
    ensures |s| > 0 && Lacks(s, '.')
    ensures forall k :: 0 <= k < |s| ==> IsDigit(s[k]) || (k == 0 && s[k] == '-' && i < 0)
  {
    if i < 0 then
      var digits := ShowNat(-i);
      assert forall k :: 1 <= k < |digits| + 1 ==> ("-" + digits)[k] == digits[k - 1];
      "-" + digits
    else ShowNat(i)
  }

  /** Reading back the text of an integer gives the integer. */
  lemma ParseShowInt(i: int)
    ensures ParseInt(ShowInt(i)) == Some(i)
  {
    var s := ShowInt(i);
    if i < 0 {
      var digits := ShowNat(-i);
      assert s == "-" + digits;
      assert s[1..] == digits;
      assert Negative(s) && Unsigned(s) == digits;
      ShowNatValue(-i);
    } else {
      assert s == ShowNat(i) && IsDigit(s[0]);
      assert !Negative(s) && Unsigned(s) == s;
      ShowNatValue(i);
    }
  }

  /** Leading zeros and a plus sign are accepted. */
  lemma ParseIntSamples()
    ensures ParseInt("007") == Some(7)
    ensures ParseInt("+12") == Some(12)
    ensures ParseInt("-3") == Some(-3)
    ensures ParseInt("-") == None
    ensures ParseInt("") == None
    ensures ParseInt("1x") == None
  {
    assert DigitsValue("007") == 7 by {
      assert "007"[..2] == "00";
      assert "00"[..1] == "0";
    }
    assert Unsigned("+12") == "12";
    assert DigitsValue("12") == 12 by { assert "12"[..1] == "1"; }
    assert Unsigned("-3") == "3";
    assert !IsDigit("1x"[1]);
  }

  /** v times 10 to the power x, one decimal place at a time. */
  function Shift(v: real, x: int): (r: real)
    decreases if x >= 0 then x else -x
  {
    if x == 0 then v
    else if x > 0 then Shift(v * 10.0, x - 1)
    else Shift(v / 10.0, x + 1)
  }

  /** The position of the first c in s, or |s| when there is none. */
  function Find(s: string, c: char): (p: nat)
    ensures p <= |s| && (p == |s| || s[p] == c)
    ensures forall k :: 0 <= k < p ==> s[k] != c
  {
    if |s| == 0 then 0
    else if s[0] == c then 0
    else 1 + Find(s[1..], c)
  }

  /** Where the exponent of a float literal starts: the first `e` or `E`. */
  function ExponentAt(s: string): (p: nat)
    ensures p <= |s|
  {
    var lower := Find(s, 'e');
    var upper := Find(s, 'E');
    if lower <= upper then lower else upper
  }

  /** The value of a float mantissa: digits, digits with a point, or a point
      with digits; at least one digit. */
  function Mantissa(m: string): (r: Option<real>) {
    var d := Find(m, '.');
    var whole := m[..d];
    var frac := if d < |m| then m[d + 1..] else [];
    if !AllDigits(whole) || !AllDigits(frac) || |whole| + |frac| == 0 then None
    else
      assert AllDigits(whole + frac);
      Some(Shift(DigitsValue(whole + frac) as real, -|frac|))
  }

  /** An unsigned float literal: a mantissa, optionally followed by `e` or
      `E` and a signed integer exponent. */
  function UnsignedFloat(body: string): (r: Option<real>) {
    var e := ExponentAt(body);
    if e == |body| then Mantissa(body)
    else
      match Mantissa(body[..e])
      case None => None
      case Some(m) =>
        match ParseInt(body[e + 1..])
        case None => None
        case Some(x) => Some(Shift(m, x))
  }

  /** `float(s)` for the decimal spellings: an optional sign and an unsigned
      literal; anything else raises ValueError (None). */
  function ParseFloat(s: string): (r: Option<real>) {
    match UnsignedFloat(Unsigned(s))
    case None => None
    case Some(x) => Some(if Negative(s) then -x else x)
  }

  lemma MantissaOfDecimal(w: string, f: string)
    requires AllDigits(w) && AllDigits(f) && |w| + |f| > 0
    ensures AllDigits(w + f)
    ensures Mantissa(w + "." + f) == Some(Shift(DigitsValue(w + f) as real, -|f|))
  {
    PointSplit(w, f);
    assert AllDigits(w + f);
  }

  /** Where the point of `w.f` sits, for a digit run w, and the two parts
      either side of it. */
  lemma PointSplit(w: string, f: string)
    requires AllDigits(w)
    ensures Find(w + "." + f, '.') == |w|
    ensures (w + "." + f)[..|w|] == w && (w + "." + f)[|w| + 1..] == f
  {
    var s := w + "." + f;
    assert forall k :: 0 <= k < |w| ==> s[k] == w[k] && s[k] != '.';
    assert s[|w|] == '.';
    FindAt(s, '.', |w|);
    assert s[..|w|] == w && s[|w| + 1..] == f;
  }

  /** A literal without `e` or `E` is all mantissa. */
  lemma UnsignedFloatPlain(s: string)
    requires Lacks(s, 'e') && Lacks(s, 'E')
    ensures UnsignedFloat(s) == Mantissa(s)
  {
    assert Find(s, 'e') == |s|;
    assert Find(s, 'E') == |s|;
  }

  /** The reading of a decimal literal `w.f` with digit runs w and f, not
      both empty: the digits of w and f together, scaled down by the length
      of f. */
  lemma ParseFloatDecimal(w: string, f: string)
    requires AllDigits(w) && AllDigits(f) && |w| + |f| > 0
    ensures AllDigits(w + f)
    ensures Mantissa(w + "." + f) == Some(Shift(DigitsValue(w + f) as real, -|f|))
    ensures ParseFloat(w + "." + f) == Some(Shift(DigitsValue(w + f) as real, -|f|))
  {
    var s := w + "." + f;
    MantissaOfDecimal(w, f);
    assert Lacks(s, 'e') && Lacks(s, 'E') by {
      assert forall k :: 0 <= k < |s| ==> IsDigit(s[k]) || s[k] == '.';
    }
    UnsignedFloatPlain(s);
    assert Unsigned(s) == s && !Negative(s) by {
      if |w| > 0 { assert s[0] == w[0]; } else { assert s[0] == '.'; }
    }
  }

  lemma FindAt(s: string, c: char, p: nat)
    requires p < |s| && s[p] == c && forall k :: 0 <= k < p ==> s[k] != c
    ensures Find(s, c) == p
  {
  }

  /** A mantissa followed by `e` and an integer reads as the mantissa scaled
      by 10 to that integer. */
  lemma UnsignedFloatWithExponent(m: string, t: string)
    requires Lacks(m, 'e') && Lacks(m, 'E')
    requires Mantissa(m).Some? && ParseInt(t).Some?
    ensures UnsignedFloat(m + "e" + t) == Some(Shift(Mantissa(m).value, ParseInt(t).value))
  {
    IntLacks(t, 'E');
    ExponentSplit(m, t);
  }

  /** Text that reads as an int holds no character other than a sign or a
      digit. */
  lemma IntLacks(t: string, c: char)
    requires ParseInt(t).Some? && !IsDigit(c) && c != '+' && c != '-'
    ensures Lacks(t, c)
  {
    var ds := Unsigned(t);
    forall k | 0 <= k < |t|
      ensures t[k] != c
    {
      if ds != t && k > 0 {
        assert t[k] == ds[k - 1];
      }
    }
  }

  /** Where the exponent marker of `m + "e" + t` sits, and the two parts
      either side of it. */
  lemma ExponentSplit(m: string, t: string)
    requires Lacks(m, 'e') && Lacks(m, 'E') && Lacks(t, 'E')
    ensures ExponentAt(m + "e" + t) == |m|
    ensures (m + "e" + t)[..|m|] == m && (m + "e" + t)[|m| + 1..] == t
  {
    var s := m + "e" + t;
    assert forall k :: 0 <= k < |m| ==> s[k] == m[k];
    assert forall k :: |m| < k < |s| ==> s[k] == t[k - |m| - 1];
    assert s[..|m|] == m && s[|m|] == 'e' && s[|m| + 1..] == t;
    FindAt(s, 'e', |m|);
    assert Find(s, 'E') == |s|;
  }

  lemma ScientificBody(w: string, f: string, x: int)
    requires AllDigits(w) && AllDigits(f) && |w| + |f| > 0
    ensures AllDigits(w + f)
    ensures UnsignedFloat(w + "." + f + "e" + ShowInt(x)) == Some(Shift(Shift(DigitsValue(w + f) as real, -|f|), x))
  {
    var m := w + "." + f;
    MantissaOfDecimal(w, f);
    ParseShowInt(x);
    assert Lacks(m, 'e') && Lacks(m, 'E') by {
      assert forall k :: 0 <= k < |m| ==> IsDigit(m[k]) || m[k] == '.';
    }
    UnsignedFloatWithExponent(m, ShowInt(x));
  }

  /** A decimal literal followed by an exponent: the reading of `w.f` scaled
      by 10 to the exponent. */
  lemma ParseFloatScientific(w: string, f: string, x: int)
    requires AllDigits(w) && AllDigits(f) && |w| + |f| > 0
    ensures AllDigits(w + f)
    ensures ParseFloat(w + "." + f + "e" + ShowInt(x)) == Some(Shift(Shift(DigitsValue(w + f) as real, -|f|), x))
  {
    var m := w + "." + f;
    var t := ShowInt(x);
    var s := m + "e" + t;
    ScientificBody(w, f, x);
    assert Unsigned(s) == s && !Negative(s) by {
      assert s[0] == m[0];
      if |w| > 0 { assert m[0] == w[0]; } else { assert m[0] == '.'; }
    }
  }

  /** ParseFloatDecimal for a literal s spelled `w.f`, whose digits are ds. */
  lemma DecimalLiteral(s: string, w: string, f: string, ds: string)
    requires AllDigits(w) && AllDigits(f) && |w| + |f| > 0
    requires s == w + "." + f && ds == w + f
    ensures AllDigits(ds) && ParseFloat(s) == Some(Shift(DigitsValue(ds) as real, -|f|))
  {
    ParseFloatDecimal(w, f);
  }

  /** Sample readings of decimal literals. */
  lemma ParseFloatWhole()
    ensures ParseFloat("12.0") == Some(12.0)
  {
    assert "12.0" == "12" + "." + "0" && "120" == "12" + "0";
    DecimalLiteral("12.0", "12", "0", "120");
    assert DigitsValue("120") == 120 by {
      assert "120"[..2] == "12";
      assert "12"[..1] == "1";
    }
    assert Shift(120.0, -1) == 12.0;
  }

  lemma ParseFloatPointFirst()
    ensures ParseFloat(".5") == Some(0.5)
  {
    DecimalLiteral(".5", "", "5", "5");
    assert DigitsValue("5") == 5 by { assert "5"[..0] == ""; }
  }

  lemma ParseFloatPointLast()
    ensures ParseFloat("2.") == Some(2.0)
  {
    DecimalLiteral("2.", "2", "", "2");
  }

  /** A point with no digit on either side is not a number. */
  lemma ParseFloatLonePoint()
    ensures ParseFloat(".") == None
  {
    assert Find(".", '.') == 0;
    assert "."[..0] == "" && "."[1..] == "";
  }

  /** An exponent marker must be followed by an integer. */
  lemma ParseFloatEmptyExponent()
    ensures ParseFloat("1.5e") == None
  {
    assert ExponentAt("1.5e") == 3 by {
      assert Find("1.5e", 'e') == 3;
      assert Find("1.5e", 'E') == 4;
    }
    assert "1.5e"[4..] == "";
  }
}

=== FILE: unique.dfy ===
/** Order-preserving de-duplication, as an insertion-ordered dictionary
    built from a list yields it: the distinct elements, each kept at its
    first occurrence, in the order in which they were first inserted. */
module Unique {

  predicate Distinct<T(==,!new)>(xs: seq<T>) {
    forall p, q :: 0 <= p < q < |xs| ==> xs[p] != xs[q]
  }

  /** The position at which x first occurs in xs. */
  function FirstIndex<T(==,!new)>(xs: seq<T>, x: T): (p: nat)
    requires x in xs
    ensures p < |xs| && xs[p] == x && x !in xs[..p]
  {
    if xs[0] == x then 0
    else
      var p := 1 + FirstIndex(xs[1..], x);
      assert xs[..p] == [xs[0]] + xs[1..][..p - 1];
      p
  }

  /** A position holding x with no earlier x is the first index. */
  lemma FirstIndexUnique<T(!new)>(xs: seq<T>, x: T, p: nat)
    requires p < |xs| && xs[p] == x && x !in xs[..p]
    ensures FirstIndex(xs, x) == p
  {
  }

  /** Insert the keys one by one, skipping keys already present. */
  function Dedup<T(==,!new)>(xs: seq<T>): (r: seq<T>)
    ensures Distinct(r)
    ensures forall x :: x in r <==> x in xs
    ensures |r| <= |xs|
  {
    if |xs| == 0 then []
    else
      var r := Dedup(xs[..|xs| - 1]);
      var x := xs[|xs| - 1];
      assert forall y :: y in xs <==> y in xs[..|xs| - 1] || y == x;
      if x in r then r else r + [x]
  }

  /** A non-empty list keeps its head at the front. */
  lemma {:induction false} DedupHead<T(!new)>(xs: seq<T>)
    requires |xs| > 0
    ensures |Dedup(xs)| > 0 && Dedup(xs)[0] == xs[0]
  {
    if |xs| > 1 {
      var pre := xs[..|xs| - 1];
      DedupHead(pre);
      assert pre[0] == xs[0];
    }
  }

  /** The kept elements appear in the order of their first occurrences. */
  lemma {:induction false} DedupFirstOccurrenceOrder<T(!new)>(xs: seq<T>)
    ensures forall p, q :: 0 <= p < q < |Dedup(xs)| ==>
      FirstIndex(xs, Dedup(xs)[p]) < FirstIndex(xs, Dedup(xs)[q])
  {
    if |xs| > 0 {
      var n := |xs| - 1;
      var pre := xs[..n];
      var r := Dedup(pre);
      var x := xs[n];
      DedupFirstOccurrenceOrder(pre);
      var d := Dedup(xs);
      assert d == if x in r then r else r + [x];
      forall p, q | 0 <= p < q < |d|
        ensures FirstIndex(xs, d[p]) < FirstIndex(xs, d[q])
      {
        assert d[p] == r[p] && r[p] in pre;
        FirstIndexPrefix(xs, n, r[p]);
        if q < |r| {
          assert d[q] == r[q] && r[q] in pre;
          FirstIndexPrefix(xs, n, r[q]);
        } else {
          assert d[q] == x && x !in pre;
          FirstIndexUnique(xs, x, n);
        }
      }
    }
  }

  /** An element of a prefix first occurs where it first occurs in the
      prefix. */
  lemma FirstIndexPrefix<T(!new)>(xs: seq<T>, n: nat, y: T)
    requires n <= |xs| && y in xs[..n]
    ensures y in xs && FirstIndex(xs, y) == FirstIndex(xs[..n], y)
  {
    var f := FirstIndex(xs[..n], y);
    assert xs[..f] == xs[..n][..f];
    FirstIndexUnique(xs, y, f);
  }

  /** A list that already has no duplicates is returned unchanged. */
  lemma {:induction false} DedupOfDistinct<T(!new)>(xs: seq<T>)
    requires Distinct(xs)
    ensures Dedup(xs) == xs
  {
    if |xs| > 0 {
      var pre := xs[..|xs| - 1];
      DedupOfDistinct(pre);
      assert xs[|xs| - 1] !in pre;
      assert pre + [xs[|xs| - 1]] == xs;
    }
  }

  /** A non-empty list of copies of one value keeps a single copy. */
  lemma {:induction false} DedupConstant<T(!new)>(xs: seq<T>, c: T)
    requires |xs| > 0 && forall k :: 0 <= k < |xs| ==> xs[k] == c
    ensures Dedup(xs) == [c]
  {
    var pre := xs[..|xs| - 1];
    if |pre| == 0 {
      assert Dedup(pre) == [];
    } else {
      DedupConstant(pre, c);
    }
  }

  /** A distinct list preceded by a copy of its own head dedups to itself. */
  lemma {:induction false} DedupRepeatedHead<T(!new)>(d: seq<T>)
    requires |d| > 0 && Distinct(d)
    ensures Dedup([d[0]] + d) == d
  {
    var xs := [d[0]] + d;
    if |d| == 1 {
      assert xs[..1] == [d[0]];
      assert Dedup(xs[..1]) == [d[0]];
    } else {
      var pre := d[..|d| - 1];
      DedupRepeatedHead(pre);
      assert xs[..|xs| - 1] == [pre[0]] + pre;
      assert d[|d| - 1] !in pre;
      assert pre + [d[|d| - 1]] == d;
    }
  }
}
